=== FILE: README.md ===
# rabbit-hapi core, modelled in Dafny

rabbit-hapi is a hapi plugin that gives an application one managed AMQP (RabbitMQ)
connection and two roles on top of it:

- a **publisher**, which validates a message against a declared schema and routes it to an
  exchange or a queue;
- a **consumer**, which declares its exchange, queue and bindings, then consumes, acknowledges
  or rejects each delivery, and on failure can divert a diagnostic to a derived debug queue.

This project models that core as pure functions over immutable data, and proves properties of
it with Dafny 4.11. The modules are:

- `Connection` (connection.dfy) covers the connection manager of lib/AMQPConnection.js. Each
  operation is a transition from a state to a `Step`: the next state, the trace of library
  calls and emitted events, and the error thrown. This covers `connect`, `reconnect` with its
  back-off, `close`, `getChannel`, and the library's `close`/`error` and channel `error`
  listeners.
- `Schema` (schema.dfy) covers lib/schema.js. It holds the five declared schemas as data and
  a validator that applies them: required keys, defaults, leaf rules, nested option objects
  and rejection of unknown keys.
- `Publisher` (publisher.dfy) covers lib/Publisher.js: `prepareMessage` (normalise, validate,
  encode) and the channel calls of `publish`.
- `Consumer` (consumer.dfy) covers lib/Consumer.js: the infrastructure plan, `subscribe`, the
  debug queue name, the per-message handler, and the constructor's resubscribe listener.
- `Channel` (channel.dfy) is the boundary with the AMQP client library: the commands the core
  issues and the exchange and queue settings it forwards.
- `Utf8` (utf8.dfy) models `new Buffer(text)` and `buffer.toString()`, with a proof that
  decoding undoes encoding.
- `Wrappers` (wrappers.dfy) holds `Option` and `Result`.

The following are parameters: whether a dial, a channel request or a handle's close is
accepted, the queue name the broker confirms, the delivered bytes, whether the receive
function throws, and the growth term of the back-off. The other channel calls are assumed
to succeed (see "Left out").

Some behaviour follows the code rather than its description. Each item is modelled as the
code has it:

- **The resubscribe event.** The consumer listens for `reconnected`, but the connection emits
  `reconnect`. So no transition of the connection manager triggers a resubscription.
  `Consumer.NoTransitionResubscribes` states this.
- **The first connect is announced too.** `retry` starts undefined, and `undefined !== 0`, so
  the first successful connect also emits `reconnect`.
- **Required is checked before default.** The debug schema declares `isActivated` as both
  required and defaulted. The required check comes first, so a missing `isActivated` is an
  error and its default never applies.
- **Empty strings are rejected.** A string rule rejects the empty string. An empty message
  content therefore fails validation.
- **Plain strings get no message options.** A message given as a plain string is normalised to
  `{ content }` with no `options` object. It gets no `contentType` default and carries no
  properties.
- **The debug-name pattern.** The pattern `(\..[^.]*)$` is taken as JavaScript reads it: the
  `.` after the escaped dot does not match a line terminator.
- **The debug-name guard.** The guard `!name || name !== ''` is true for every name, so a
  configured debug queue name is always overwritten.
- **Negative `maxDelay`.** A negative `maxDelay` is truthy, so it becomes the timer's
  argument, even in the first band of retries. Timers treat a delay below 1 ms as 1 ms, so the
  real wait is then 1 ms; the model computes the argument, not the clamped wait.

## Model

| member | source | states |
|---|---|---|
| `Utf8.EncodeChar` | lib/Publisher.js:59 | each character becomes one to four bytes; one byte exactly for ASCII; every trailing byte is a continuation byte |
| `Utf8.Encode` | lib/Publisher.js:59 | the byte length of a text lies between its length and four times its length |
| `Utf8.Decode` | lib/Consumer.js:72 | `toString()` yields at most one character per byte, and at least one for a non-empty buffer |
| `Utf8.DecodeAscii` | lib/Consumer.js:72 | a buffer of bytes below 0x80 decodes to the characters with those values, one per byte |
| `Utf8.DecodeOneEncodeChar` | lib/Consumer.js:72 | decoding the encoding of one character, whatever follows it, gives that character back and consumes exactly its bytes |
| `Utf8.DecodeEncode` | lib/Consumer.js:72 | `toString()` of the buffer built from a text is that text |
| `Utf8.EncodeInjective` | lib/Publisher.js:59 | two different texts never encode to the same bytes |
| `Schema.Check` | lib/Publisher.js:58 | a leaf rule that accepts returns the value unchanged; an object schema accepts only objects and returns an object |
| `Schema.ObjectAccepts` | lib/schema.js:5-15 | an object validates exactly when every declared key validates and no undeclared key is present, for any object schema; every name in the result belongs to a declared key that produced a value |
| `Schema.ObjectSemantics` | lib/schema.js:55-77 | for a given declared key: the first key of its name stores its outcome in the validated object, and the stored name was declared |
| `Schema.LeafField` | lib/schema.js:5-15 | after success, a supplied leaf value was valid and is kept unchanged; a missing one was optional and takes its default when one is declared |
| `Schema.FieldRejects` | lib/schema.js:56 | a missing required key, or a supplied value its rule rejects, fails the whole object |
| `Schema.MessageContent` | lib/schema.js:55-56 | a message validates only with a non-empty string `content`, kept as given; `options` is in the result exactly when it was supplied; missing or empty content fails |
| `Schema.MessageOptionDefaults` | lib/schema.js:57-59 | message options get `contentType` "application/json" and `persistent` true when missing; supplied values are kept |
| `Schema.ExchangeType` | lib/schema.js:7 | the exchange type defaults to "fanout" and is always one of direct, fanout, topic, header; any other supplied type is rejected |
| `Schema.QueueOptionDefaults` | lib/schema.js:41-45 | queue options get `exclusive`, `durable` and `autoDelete` true and `arguments` {} when missing |
| `Schema.ConsumerOptionDefaults` | lib/schema.js:26-33 | consumer options get `noLocal`, `noAck` and `exclusive` false when missing; `prefetch` is accepted exactly when it is a positive integer |
| `Schema.DebugSettings` | lib/schema.js:17-19 | a missing `isActivated` is an error despite its default; `expires` defaults to 86400000 and is always a positive integer |
| `Publisher.ValidatedShape` | lib/Publisher.js:58 | a validated message is an object with a non-empty string `content` equal to the supplied one |
| `Publisher.Normalize` | lib/Publisher.js:50-56 | a primitive or boxed string becomes an object whose only field is `content`, holding that text; any other value is passed on unchanged |
| `Publisher.Prepare` | lib/Publisher.js:50-62 | preparation succeeds exactly when the normalised message validates; the content is the UTF-8 encoding of the non-empty text; properties are present exactly when `options` was supplied |
| `Publisher.PrepareText` | lib/Publisher.js:54-56 | a string message, primitive or boxed, is accepted exactly when non-empty; its bytes decode back to it; it carries no properties |
| `Publisher.PrepareObjectDefaults` | lib/Publisher.js:58 | an object message with `options` is published with the option defaults applied |
| `Publisher.PrepareKeepsOptions` | lib/Publisher.js:58 | a prepared object message with `options` carries every supplied option unchanged in its properties |
| `Schema.SuppliedLeavesKept` | lib/schema.js:57-76 | for an object schema of leaf keys with distinct names, a validated object keeps every supplied field unchanged |
| `Publisher.Route` | lib/Publisher.js:27-42 | the command sequence is exact: optional exchange, then (with a queue) the queue, the one binding when the exchange is named, and the publish; the exchange is asserted first exactly when named; without a queue nothing is published; with a queue there is exactly one publish, last, carrying the prepared content and properties; a named exchange gets one binding of the confirmed queue and the publish uses `routingKey` or, if that is empty, the confirmed name; otherwise the publish goes to the default exchange under the confirmed name |
| `Publisher.Publish` | lib/Publisher.js:23-43 | `publish` succeeds exactly when the normalised message validates, and otherwise throws the validation error with no channel call; a valid message is published once exactly when a queue is configured, after the exchange assertion exactly when it is named, and the published bytes are the UTF-8 encoding of the validated content |
| `Publisher.PublishTextRoundTrip` | lib/Publisher.js:23-59 | publishing a non-empty string to a queue publishes once, with bytes that decode to that string |
| `Connection.Backoff` | lib/AMQPConnection.js:69-72 | in the first band of five retries, or with `maxDelay` absent or zero, the wait is 1000 ms; an absent `retry` gives 1000 ms; whenever `retry` is set and `maxDelay` is negative, the timer's argument is `maxDelay`; later bands with a positive cap wait the smaller of the growth term and `maxDelay`; without a negative cap the wait is positive |
| `Connection.BackoffBand` | lib/AMQPConnection.js:69 | all retries in one band of five wait the same time |
| `Connection.BackoffMonotone` | lib/AMQPConnection.js:72 | from the second band on, the wait never shrinks as the count grows |
| `Connection.Connect` | lib/AMQPConnection.js:17-52 | a dial is made first; on success the trace is the dial, the `reconnect` event when `retry` was not 0, and the "connected" log, nothing else; `retry` becomes 0, the manager is connected and "connected" is logged last; `reconnect` is emitted exactly when `retry` was not 0; on failure the state is unchanged, the error is logged and "Couldn't connect to Rabbit : " is thrown |
| `Connection.Reconnect` | lib/AMQPConnection.js:54-74 | refuses, with no effect, exactly when the retries are used up and automatic reconnection is off; otherwise it waits the back-off of the previous count, then dials with the count incremented and the handle dropped; the trace is exactly the wait, the dial, then `reconnect` and the "connected" log on success, or the error log on refusal |
| `Connection.ReconnectAnnounces` | lib/AMQPConnection.js:38-40 | a successful reconnection always emits `reconnect` |
| `Connection.FirstConnectAnnounces` | lib/AMQPConnection.js:38-42 | the first successful connect also emits `reconnect` and sets `retry` to 0 |
| `Connection.Close` | lib/AMQPConnection.js:76-84 | closing marks the manager closed and disconnected, keeps the count and handle, and closes the handle only if there is one; it throws exactly when the handle's close is rejected, passing that rejection on |
| `Connection.CloseIdempotent` | lib/AMQPConnection.js:76-84 | closing twice leaves the state closing once left, and the second close asks the kept handle to close again |
| `Connection.OnBrokerClose` | lib/AMQPConnection.js:30-36 | the library's close event reconnects, after logging "trying to reconnect", exactly when automatic reconnection is on and the manager was not closed, and then throws what the reconnection throws; otherwise nothing changes |
| `Connection.OnBrokerError` | lib/AMQPConnection.js:22-28 | the library's error event logs and rethrows every error except the closing sentinel, which is ignored |
| `Connection.OnChannelError` | lib/AMQPConnection.js:95-98 | a channel error is logged under the channel tags, changes nothing and is not rethrown |
| `Connection.GetChannel` | lib/AMQPConnection.js:86-105 | when connected with a handle the trace is exactly one channel request; when not connected the state is the dial's state and, on success, the trace is the dial's trace followed by one channel request; a dial happens exactly when not connected, and its failure propagates unchanged; a channel is requested exactly when a handle is available; it succeeds exactly when both succeed; a manager marked connected without a handle fails without asking |
| `Connection.StaleHandleBlocksChannels` | lib/AMQPConnection.js:67 | after a connect and then a refused redial, the manager stays marked connected with no handle, and the next `getChannel` fails without dialling or requesting a channel |
| `Connection.Apply` | lib/AMQPConnection.js:6-106 | no operation makes a defined `retry` undefined, connects without defining it, or clears `closed`; the only event emitted besides `log` is `reconnect` |
| `Connection.RunKeepsInvariants` | lib/AMQPConnection.js:13-14 | over any history of operations, `closed` stays set once set, a defined `retry` stays defined, and `retry` is undefined only while the manager has never connected |
| `Consumer.FirstMatchFrom` | lib/Consumer.js:63 | the search finds the leftmost index where the pattern `\..[^.]*$` matches, or reports that none does |
| `Consumer.DebugName` | lib/Consumer.js:63 | the name is unchanged exactly when the pattern matches nowhere; otherwise it grows by ".debug"; a name whose only dot, if any, is its last character is unchanged |
| `Consumer.DebugNameAt` | lib/Consumer.js:63 | at the leftmost match, ".debug" is inserted just before the matched dot |
| `Consumer.DebugNameExample` | test/pub-sub.js:118-125 | "my_model.my_action" derives "my_model.debug.my_action" |
| `Consumer.DeriveDebugName` | lib/Consumer.js:63 | a scan for the last dot computes the same derived name as the pattern |
| `Consumer.BindAll` | lib/Consumer.js:49 | one binding per routing key, in order, of the confirmed queue to the exchange |
| `Consumer.AssertInfra` | lib/Consumer.js:38-53 | the plan is, position by position: the exchange assertion exactly when named (and nowhere else), the queue assertion, then, unless a named exchange has no routing keys and the plan throws there, one binding per routing key on the confirmed name in order and the prefetch last |
| `Consumer.InfraBindings` | lib/Consumer.js:48-50 | the consumer's queue is bound to its exchange under exactly its routing keys, and the plan binds nothing else |
| `Consumer.PublisherKeyReachesConsumer` | lib/Publisher.js:34-37 | a publisher on the consumer's exchange with one of the consumer's non-empty routing keys publishes under a pattern the consumer's queue is bound with |
| `Consumer.Subscribe` | lib/Consumer.js:25-94 | an infrastructure error stops right after the plan, whose calls are exactly the steps taken; otherwise the plan is followed by exactly one `consume` on the confirmed queue with the consumer options; `waitingFunc` is awaited last exactly when it is a function, and throws otherwise; with debugging enabled the debug queue is the derived name with the configured options |
| `Consumer.CustomDebugNameIgnored` | lib/Consumer.js:62-64 | a configured debug queue name makes no difference to the subscription |
| `Consumer.Handle` | lib/Consumer.js:69-91 | the receive function is called once, first, with the decoded body; success acks once and failure nacks once, with the configured `allUpTo` and `requeue`, each only without `noAck`; a failure is logged once, right after the call, and success never; with debugging on, a failure diverts the decoded content to the debug queue, last; nothing else happens |
| `Consumer.PublishedTextIsReceived` | lib/Consumer.js:72 | a string published to a queue reaches a consumer's receive function, and on failure its debug queue, as that same string |
| `Consumer.OnConnectionEvent` | lib/Consumer.js:19 | the consumer resubscribes exactly on the `reconnected` event |
| `Consumer.NoTransitionResubscribes` | lib/Consumer.js:19 | no operation of the connection manager emits an event that makes a consumer resubscribe |

## Left out

- Network I/O, the client library and timers are left out. Dials, channel requests, `assertQueue` replies and deliveries are parameters. The back-off timer is a `Sleep` event with the computed delay.
- Asynchrony and interleaving are left out. Operations are atomic transitions. The concurrent `Promise.all` of the bindings is modelled as their order in the plan.
- Listener registration is left out. `connect` adds `error`/`close` listeners to each new handle, and repeated subscriptions would add listeners again. The model applies the listener logic as transitions and does not count listeners.
- The back-off growth term `range * range^1.5 * 60000` is a floating-point power. It is a parameter that is zero at zero, positive above and non-decreasing. The model keeps no exact values of it.
- `Connection.Reconnect`: the error thrown when reconnection is refused is `CannotReconnect`. In the code, `const Error = new Error(...)` reads `Error` before its own initialisation and throws a ReferenceError. The 504 payload is never built. The model says only that an error is thrown and nothing else happens.
- `Connection.GetChannel`: the TypeError from `createChannel` on an undefined handle is given one fixed message. Its exact wording depends on the JavaScript engine.
- `Consumer.Handle`: the diagnostic is `JSON.stringify({ error, message })`. The model keeps the decoded content the test reads back and does not model the JSON text. An `Error`'s own `message` is not enumerable, so the serialised `error` does not carry it. Errors thrown by `ack`, `nack` or the debug publish are not modelled.
- `Consumer.Subscribe`: the `getChannel` call at the start of the infrastructure step is left out. The channel is given. A missing `consumer.options` or `debug.queue` object would throw a TypeError in the code; the model's configuration always has them. `Consumer.close` (cancel and close the channel) is left out because it only forwards to the library.
- The TypeError texts thrown for a named exchange without `routingKeys` and for a `waitingFunc` that is not a function are each one fixed message (`NoRoutingKeysReason`, `NoWaitingFuncReason`). Their exact wording depends on the JavaScript engine.
- The derived debug queue name is returned as part of the subscription, not written back into the caller's `debug.queue` object. The code assigns it there, so consumers sharing one configuration object also share the name written last.
- A rejection of `assertExchange`, `assertQueue`, `bindQueue`, `prefetch`, `publish` or `consume` is not modelled. Each would propagate out of `publish` or `subscribe`, ending the sequence of calls at that point. The model assumes each such call succeeds.
- `Schema.Check`: the validation library's type coercion is left out, for example the string "true" accepted as a boolean or "5" as a number. Values are checked as given. Arrays, null and other values no schema here accepts are one `Other` value.
- `Utf8.Decode`: invalid byte sequences decode one byte at a time to U+FFFD. Node's decoder groups a maximal invalid subpart into one U+FFFD. Text is sequences of Unicode scalar values, so lone surrogates are not modelled. Every published text is well formed, and for well-formed input the two decoders agree.
- The plugin wiring of lib/index.js is not part of this model: option validation through the schemas, server decorations and the hapi lifecycle. Neither is the RPC responder of lib/RPCAnswerer.js.
- `retry` as NaN after `undefined++` is merged with undefined. Both make every comparison false and the back-off fall back to 1000 ms.

=== FILE: channel.dfy ===
/** The boundary with the AMQP client library: the channel calls the core issues, the
    exchange and queue settings it forwards, and the `log` records it emits. The core never
    inspects exchange or queue options; it hands them to the library as it received them. */
module Channel {
  import opened Wrappers
  import Schema
  import Utf8

  /** An exchange setting: `name` is "" when absent (both are falsy to the core), `kind` and
      `options` are forwarded unchanged. */
  datatype ExchangeSpec = ExchangeSpec(name: string, kind: Option<string>, options: Option<Schema.Value>)

  /** A queue setting: `name` is "" when absent, which asks the broker to pick one. */
  datatype QueueSpec = QueueSpec(name: string, options: Option<Schema.Value>)

  /** A `log` event: `{ tags, message }`. */
  datatype LogRecord = LogRecord(tags: seq<string>, message: string)

  datatype Command =
    | AssertExchange(exchange: ExchangeSpec)
    | AssertQueue(queue: QueueSpec)
    | BindQueue(queueName: string, exchangeName: string, pattern: Option<string>)
    | Prefetch(count: Option<int>)
    | BasicPublish(exchangeName: string, routingKey: string, content: seq<Utf8.byte>, properties: Option<Schema.Value>)

  /** The guard `exchange && exchange.name && exchange.name !== ''`. */
  predicate HasNamedExchange(exchange: Option<ExchangeSpec>) {
    exchange.Some? && exchange.value.name != ""
  }

  /** The number of publishes in a command sequence. */
  function CountPublishes(cmds: seq<Command>): nat {
    if |cmds| == 0 then 0 else (if cmds[0].BasicPublish? then 1 else 0) + CountPublishes(cmds[1..])
  }

  /** The bindings of a command sequence, in order. */
  function Bindings(cmds: seq<Command>): seq<Command> {
    if |cmds| == 0 then [] else (if cmds[0].BindQueue? then [cmds[0]] else []) + Bindings(cmds[1..])
  }

  /** The patterns under which a command sequence binds `queue` to `exchange`. */
  function BoundPatterns(cmds: seq<Command>, queue: string, exchange: string): set<Option<string>> {
    set c | c in cmds && c.BindQueue? && c.queueName == queue && c.exchangeName == exchange :: c.pattern
  }

  lemma Singleton(c: Command)
    ensures CountPublishes([c]) == (if c.BasicPublish? then 1 else 0)
    ensures Bindings([c]) == (if c.BindQueue? then [c] else [])
  {
  }

  lemma {:induction false} NoBindings(cmds: seq<Command>)
    requires forall c :: c in cmds ==> !c.BindQueue?
    ensures Bindings(cmds) == []
  {
    if |cmds| > 0 {
      assert cmds[0] in cmds;
      NoBindings(cmds[1..]);
    }
  }

  lemma {:induction false} CountPublishesAppend(a: seq<Command>, b: seq<Command>)
    ensures CountPublishes(a + b) == CountPublishes(a) + CountPublishes(b)
  {
    if |a| > 0 {
      assert (a + b)[0] == a[0] && (a + b)[1..] == a[1..] + b;
      CountPublishesAppend(a[1..], b);
    } else {
      assert a + b == b;
    }
  }

  lemma {:induction false} BindingsAppend(a: seq<Command>, b: seq<Command>)
    ensures Bindings(a + b) == Bindings(a) + Bindings(b)
  {
    if |a| > 0 {
      assert (a + b)[0] == a[0] && (a + b)[1..] == a[1..] + b;
      BindingsAppend(a[1..], b);
    } else {
      assert a + b == b;
    }
  }
}

=== FILE: connection.dfy ===
/** lib/AMQPConnection.js: the connection manager as pure transitions.

    The state is the record of fields the class keeps (`connected`, `closed`, `retry`, and
    whether `this.connection` holds a handle). Every operation returns the next state, the
    trace of calls into the client library and events it emits, and the error it throws, if
    any. The broker's answer to each call into the library is a parameter. */
module Connection {
  import opened Wrappers
  import opened Channel

  /** The options the manager reads. An absent `autoReconnect` behaves as false in both places
      it is read (`=== true` and `!`); `None` is an absent `maxRetry` or `maxDelay`. */
  datatype Options = Options(autoReconnect: bool, maxRetry: Option<int>, maxDelay: Option<int>)

  /** `retry` is `None` until the first successful connect: the constructor never sets it, so it
      is `undefined`, and `undefined + 1` is `NaN`, which behaves the same way. */
  datatype State = State(connected: bool, closed: bool, retry: Option<nat>, hasConnection: bool)

  /** The state right after the constructor. */
  const Initial := State(false, false, None, false)

  /** The back-off growth term `range * range^1.5 * 60000`, left uninterpreted: zero at zero,
      positive above it, and non-decreasing. */
  type Growth = g: nat -> real
    | g(0) == 0.0 && (forall k: nat :: 0 < k ==> 0.0 < g(k)) && (forall a: nat, b: nat :: a <= b ==> g(a) <= g(b))
    witness (k: nat) => k as real

  datatype Event =
    | Dial                        // Amqp.connect(...)
    | Emit(name: string)          // an emitted event other than `log`
    | EmitLog(record: LogRecord)  // emit('log', record)
    | Sleep(millis: real)         // the back-off timer
    | CloseHandle                 // this.connection.close()
    | CreateChannel               // this.connection.createChannel()

  /** The library's answer to a dial or a channel request. */
  datatype Reply = Accepted | Refused(reason: string)

  datatype ConnError =
    | CouldNotConnect(message: string)
    | CannotReconnect
    | CouldNotCreateChannel(message: string)
    | Rethrown(message: string)

  datatype Step = Step(state: State, trace: seq<Event>, error: Option<ConnError>)

  const ReconnectEvent := "reconnect"
  const ClosingSentinel := "AMQPConnection closing"
  /** The message of the TypeError raised by `createChannel` on an undefined handle. */
  const NoHandleReason := "Cannot read property 'createChannel' of undefined"

  function InfoLog(message: string): Event {
    EmitLog(LogRecord(["info", "AMQP", "connection"], message))
  }

  function ErrorLog(subsystem: string, message: string): Event {
    EmitLog(LogRecord(["error", "AMQP", subsystem], message))
  }

  /** `retry++`. */
  function Succ(retry: Option<nat>): Option<nat> {
    match retry
    case None => None
    case Some(n) => Some(n + 1)
  }

  /** `this.retry >= this.options.maxRetry`: false whenever either side is not a number. */
  predicate Exhausted(retry: Option<nat>, maxRetry: Option<int>) {
    retry.Some? && maxRetry.Some? && retry.value >= maxRetry.value
  }

  /** The wait before redialling: `Math.min(growth(range), maxDelay) || 1000` with
      `range = Math.floor(retry / 5)`. An undefined `retry` or `maxDelay` makes the minimum
      `NaN`, and a zero minimum is falsy; both fall back to 1000. */
  function Backoff(retry: Option<nat>, maxDelay: Option<int>, growth: Growth): (d: real)
    ensures (retry.None? || retry.value < 5) && (maxDelay.None? || maxDelay.value >= 0) ==> d == 1000.0
    ensures retry.Some? && retry.value < 5 && maxDelay.Some? && maxDelay.value < 0 ==> d == maxDelay.value as real
    ensures maxDelay.None? || maxDelay == Some(0) ==> d == 1000.0
    ensures retry.None? ==> d == 1000.0
    ensures retry.Some? && maxDelay.Some? && maxDelay.value < 0 ==> d == maxDelay.value as real
    ensures retry.Some? && retry.value >= 5 && maxDelay.Some? && maxDelay.value > 0 ==>
            0.0 < d <= maxDelay.value as real && d <= growth(retry.value / 5)
            && (d == growth(retry.value / 5) || d == maxDelay.value as real)
    ensures maxDelay.None? || maxDelay.value >= 0 ==> d > 0.0
  {
    if retry.None? || maxDelay.None? then 1000.0
    else
      var range := retry.value / 5;
      var cap := maxDelay.value as real;
      var m := if growth(range) <= cap then growth(range) else cap;
      if m == 0.0 then 1000.0 else m
  }

  /** All retries in one band of five wait the same time. */
  lemma BackoffBand(n: nat, k: nat, maxDelay: Option<int>, growth: Growth)
    requires n / 5 == k / 5
    ensures Backoff(Some(n), maxDelay, growth) == Backoff(Some(k), maxDelay, growth)
  {
  }

  /** From the second band on, the wait never shrinks as the retry count grows. */
  lemma BackoffMonotone(n: nat, k: nat, maxDelay: Option<int>, growth: Growth)
    requires 5 <= n <= k
    ensures Backoff(Some(n), maxDelay, growth) <= Backoff(Some(k), maxDelay, growth)
  {
  }

  /** `connect()`: dials; on success resets `retry` to 0, marks the manager connected and
      announces `reconnect` unless `retry` was already 0; on failure logs, throws and changes
      nothing. */
  function Connect(s: State, reply: Reply): (r: Step)
    ensures |r.trace| >= 2 && r.trace[0] == Dial
    ensures r.error.None? <==> reply.Accepted?
    ensures reply.Accepted? ==>
            && |r.trace| == (if s.retry != Some(0) then 3 else 2)
            && r.state.connected && r.state.hasConnection && r.state.retry == Some(0)
            && r.state.closed == s.closed
            && r.trace[|r.trace| - 1] == InfoLog("connected")
    ensures reply.Refused? ==>
            && r.state == s
            && r.trace == [Dial, ErrorLog("connection", reply.reason)]
            && r.error == Some(CouldNotConnect("Couldn't connect to Rabbit : " + reply.reason))
    ensures Emit(ReconnectEvent) in r.trace <==> reply.Accepted? && s.retry != Some(0)
    ensures forall e :: e in r.trace && e.Emit? ==> e.name == ReconnectEvent
  {
    match reply
    case Refused(reason) =>
      Step(s, [Dial, ErrorLog("connection", reason)],
           Some(CouldNotConnect("Couldn't connect to Rabbit : " + reason)))
    case Accepted =>
      var announce := if s.retry != Some(0) then [Emit(ReconnectEvent)] else [];
      Step(s.(connected := true, retry := Some(0), hasConnection := true),
           [Dial] + announce + [InfoLog("connected")], None)
  }

  /** `reconnect()`: refuses, changing nothing, once the retries are used up and automatic
      reconnection is off; otherwise drops the handle, counts one more retry, waits the
      back-off computed from the count before it, and connects again. */
  function Reconnect(opts: Options, growth: Growth, s: State, reply: Reply): (r: Step)
    ensures r.error == Some(CannotReconnect) <==> Exhausted(s.retry, opts.maxRetry) && !opts.autoReconnect
    ensures Exhausted(s.retry, opts.maxRetry) && !opts.autoReconnect ==> r.state == s && r.trace == []
    ensures !(Exhausted(s.retry, opts.maxRetry) && !opts.autoReconnect) ==>
            && |r.trace| >= 3
            && r.trace[0] == Sleep(Backoff(s.retry, opts.maxDelay, growth))
            && r.trace[1] == Dial
            && (reply.Refused? ==>
                  && r.state == s.(hasConnection := false, retry := Succ(s.retry))
                  && r.error == Some(CouldNotConnect("Couldn't connect to Rabbit : " + reply.reason)))
            && (reply.Accepted? ==> r.state.connected && r.state.hasConnection && r.state.retry == Some(0) && r.error.None?)
            && (reply.Accepted? ==>
                  r.trace == [Sleep(Backoff(s.retry, opts.maxDelay, growth)), Dial, Emit(ReconnectEvent), InfoLog("connected")])
            && (reply.Refused? ==>
                  r.trace == [Sleep(Backoff(s.retry, opts.maxDelay, growth)), Dial, ErrorLog("connection", reply.reason)])
    ensures r.state.closed == s.closed
    ensures forall e :: e in r.trace && e.Emit? ==> e.name == ReconnectEvent
  {
    if Exhausted(s.retry, opts.maxRetry) && !opts.autoReconnect then
      Step(s, [], Some(CannotReconnect))
    else
      var pending := s.(hasConnection := false, retry := Succ(s.retry));
      var c := Connect(pending, reply);
      Step(c.state, [Sleep(Backoff(s.retry, opts.maxDelay, growth))] + c.trace, c.error)
  }

  /** A successful reconnection always announces `reconnect`: the count it starts from has
      just been incremented, so it is never 0. */
  lemma ReconnectAnnounces(opts: Options, growth: Growth, s: State)
    requires !(Exhausted(s.retry, opts.maxRetry) && !opts.autoReconnect)
    ensures Emit(ReconnectEvent) in Reconnect(opts, growth, s, Accepted).trace
  {
  }

  /** The very first successful connect also announces `reconnect`, because `retry` is still
      undefined and `undefined !== 0`. */
  lemma FirstConnectAnnounces()
    ensures Emit(ReconnectEvent) in Connect(Initial, Accepted).trace
    ensures Connect(Initial, Accepted).state.retry == Some(0)
  {
  }

  /** `close()`: marks the manager closed and disconnected, and closes the handle if there is
      one, passing on the library's rejection unwrapped. The handle itself is kept, so a
      second `close()` asks the handle to close again. */
  function Close(s: State, reply: Reply): (r: Step)
    ensures r.state.closed && !r.state.connected
    ensures r.state.retry == s.retry && r.state.hasConnection == s.hasConnection
    ensures r.trace == (if s.hasConnection then [CloseHandle] else [])
    ensures r.error.Some? <==> s.hasConnection && reply.Refused?
    ensures r.error.Some? ==> r.error == Some(Rethrown(reply.reason))
  {
    var error := if s.hasConnection && reply.Refused? then Some(Rethrown(reply.reason)) else None;
    Step(s.(connected := false, closed := true), if s.hasConnection then [CloseHandle] else [], error)
  }

  /** Closing twice leaves the state where closing once left it, and the second close asks
      the kept handle to close again. */
  lemma CloseIdempotent(s: State, first: Reply, second: Reply)
    ensures Close(Close(s, first).state, second).state == Close(s, first).state
    ensures Close(Close(s, first).state, second).trace == Close(s, first).trace
  {
  }

  /** The library's `close` event: reconnects only when automatic reconnection is on and the
      manager was not closed on purpose; otherwise nothing happens. */
  function OnBrokerClose(opts: Options, growth: Growth, s: State, reply: Reply): (r: Step)
    ensures (opts.autoReconnect && !s.closed) <==> |r.trace| > 0
    ensures !(opts.autoReconnect && !s.closed) ==> r.state == s && r.error.None?
    ensures opts.autoReconnect && !s.closed ==>
            var again := Reconnect(opts, growth, s, reply);
            r.trace == [InfoLog("trying to reconnect")] + again.trace && r.state == again.state
            && r.error == again.error
    ensures r.state.closed == s.closed
  {
    if opts.autoReconnect && !s.closed then
      var again := Reconnect(opts, growth, s, reply);
      Step(again.state, [InfoLog("trying to reconnect")] + again.trace, again.error)
    else
      Step(s, [], None)
  }

  /** The library's `error` event: anything but the closing sentinel is logged and rethrown
      from the listener. */
  function OnBrokerError(s: State, message: string): (r: Step)
    ensures r.state == s
    ensures message == ClosingSentinel <==> r.trace == []
    ensures message == ClosingSentinel <==> r.error.None?
    ensures r.trace != [] ==> r.trace == [ErrorLog("connection", message)] && r.error == Some(Rethrown(message))
  {
    if message != ClosingSentinel then Step(s, [ErrorLog("connection", message)], Some(Rethrown(message)))
    else Step(s, [], None)
  }

  /** A channel's `error` event is logged on the manager. */
  function OnChannelError(s: State, message: string): (r: Step)
    ensures r.state == s && r.trace == [ErrorLog("channel", message)] && r.error.None?
  {
    Step(s, [ErrorLog("channel", message)], None)
  }

  /** Whether `getChannel` reaches a usable handle: the current one when connected, otherwise
      the one a successful dial brings. */
  predicate HandleReady(s: State, dial: Reply) {
    if s.connected then s.hasConnection else dial.Accepted?
  }

  /** `getChannel()`: connects first exactly when not connected (a connect failure propagates
      unwrapped), then asks the handle for a channel. A manager still marked connected after
      its handle was dropped fails without asking. */
  function GetChannel(s: State, dial: Reply, channel: Reply): (r: Step)
    ensures Dial in r.trace <==> !s.connected
    ensures CreateChannel in r.trace <==> HandleReady(s, dial)
    ensures r.error.None? <==> HandleReady(s, dial) && channel.Accepted?
    ensures !s.connected ==> r.state == Connect(s, dial).state
    ensures !s.connected && dial.Refused? ==> r == Connect(s, dial)
    ensures !s.connected && dial.Accepted? ==> r.trace == Connect(s, dial).trace + [CreateChannel]
    ensures s.connected ==> r.state == s
    ensures s.connected && s.hasConnection ==> r.trace == [CreateChannel]
    ensures s.connected && !s.hasConnection ==>
            r.trace == [] && r.error == Some(CouldNotCreateChannel("Couldn't create a channel : " + NoHandleReason))
    ensures HandleReady(s, dial) && channel.Refused? ==>
            r.error == Some(CouldNotCreateChannel("Couldn't create a channel : " + channel.reason))
  {
    var c := if !s.connected then Connect(s, dial) else Step(s, [], None);
    if c.error.Some? then c
    else if !c.state.hasConnection then
      Step(c.state, c.trace, Some(CouldNotCreateChannel("Couldn't create a channel : " + NoHandleReason)))
    else match channel
      case Refused(reason) =>
        Step(c.state, c.trace + [CreateChannel], Some(CouldNotCreateChannel("Couldn't create a channel : " + reason)))
      case Accepted =>
        Step(c.state, c.trace + [CreateChannel], None)
  }

  /** A refused redial after a successful connect leaves the manager marked connected with no
      handle, so the next `getChannel` neither redials nor creates a channel: it fails. */
  lemma StaleHandleBlocksChannels(opts: Options, growth: Growth, s: State, reason: string, dial: Reply, channel: Reply)
    requires opts.autoReconnect || opts.maxRetry.None? || opts.maxRetry.value > 0
    ensures var s1 := Connect(s, Accepted).state;
            var s2 := Reconnect(opts, growth, s1, Refused(reason)).state;
            && s2.connected && !s2.hasConnection
            && GetChannel(s2, dial, channel).error.Some?
            && Dial !in GetChannel(s2, dial, channel).trace
            && CreateChannel !in GetChannel(s2, dial, channel).trace
  {
  }

  /** Everything that can happen to a manager. */
  datatype Op =
    | DoConnect(reply: Reply)
    | DoReconnect(reply: Reply)
    | DoClose(reply: Reply)
    | BrokerClosed(reply: Reply)
    | BrokerError(message: string)
    | DoGetChannel(dial: Reply, channel: Reply)
    | ChannelError(message: string)

  /** `retry` is undefined only while no connection was ever made. */
  predicate Valid(s: State) {
    s.retry.None? ==> !s.connected && !s.hasConnection
  }

  function Apply(opts: Options, growth: Growth, s: State, op: Op): (r: Step)
    ensures Valid(s) ==> Valid(r.state)
    ensures s.retry.Some? ==> r.state.retry.Some?
    ensures s.closed ==> r.state.closed
    ensures forall e :: e in r.trace && e.Emit? ==> e.name == ReconnectEvent
  {
    match op
    case DoConnect(reply) => Connect(s, reply)
    case DoReconnect(reply) => Reconnect(opts, growth, s, reply)
    case DoClose(reply) => Close(s, reply)
    case BrokerClosed(reply) => OnBrokerClose(opts, growth, s, reply)
    case BrokerError(message) => OnBrokerError(s, message)
    case DoGetChannel(dial, channel) => GetChannel(s, dial, channel)
    case ChannelError(message) => OnChannelError(s, message)
  }

  /** The state after a sequence of operations. */
  function Run(opts: Options, growth: Growth, s: State, ops: seq<Op>): State
    decreases |ops|
  {
    if |ops| == 0 then s else Run(opts, growth, Apply(opts, growth, s, ops[0]).state, ops[1..])
  }

  /** Over any history: `closed` is never cleared once set, `retry` stays defined once it is
      defined, and it is undefined only while the manager has never connected. */
  lemma {:induction false} RunKeepsInvariants(opts: Options, growth: Growth, s: State, ops: seq<Op>)
    ensures Valid(s) ==> Valid(Run(opts, growth, s, ops))
    ensures s.retry.Some? ==> Run(opts, growth, s, ops).retry.Some?
    ensures s.closed ==> Run(opts, growth, s, ops).closed
    decreases |ops|
  {
    if |ops| > 0 {
      RunKeepsInvariants(opts, growth, Apply(opts, growth, s, ops[0]).state, ops[1..]);
    }
  }
}

=== FILE: consumer.dfy ===
/** lib/Consumer.js: the subscription plan, the debug-queue name, the per-message
    acknowledgement policy, and the hook meant to resubscribe after a reconnection.

    The broker's reply to `assertQueue` (the confirmed queue name), the delivered body and the
    outcome of the caller's receive function are parameters. */
module Consumer {
  import opened Wrappers
  import Utf8
  import opened Channel
  import Connection
  import Publisher
  import Schema

  /** The consumer options the core reads; they are also forwarded to `consume` unchanged.
      An absent `noAck` is false; `allUpTo`, `requeue` and `prefetch` are forwarded as given. */
  datatype ConsumerOptions = ConsumerOptions(noAck: bool, allUpTo: Option<bool>, requeue: Option<bool>, prefetch: Option<int>)

  datatype DebugSpec = DebugSpec(enabled: bool, queue: QueueSpec)

  /** A consumer's configuration. `routingKeys` may be absent; `hasWaitingFunc` says whether
      `consumer.waitingFunc` is a function. */
  datatype Config = Config(
    exchange: Option<ExchangeSpec>,
    queue: QueueSpec,
    routingKeys: Option<seq<string>>,
    options: ConsumerOptions,
    hasWaitingFunc: bool,
    debug: Option<DebugSpec>)

  // ---------------------------------------------------------------------------------------
  // The debug queue name: `queue.replace(/(\..[^.]*)$/, '.debug$1')`.

  /** The characters a regular-expression `.` does not match. */
  predicate IsLineTerminator(c: char) {
    c == '\n' || c == '\r' || c == '\U{2028}' || c == '\U{2029}'
  }

  /** The pattern `\..[^.]*$` matches at index `i`: a dot, one character that is not a line
      terminator, then no dot up to the end. */
  predicate MatchesAt(name: string, i: int) {
    0 <= i && i + 1 < |name| && name[i] == '.' && !IsLineTerminator(name[i + 1])
    && forall k :: i + 2 <= k < |name| ==> name[k] != '.'
  }

  /** The leftmost match at or after `from`, as the regular-expression search finds it. */
  function FirstMatchFrom(name: string, from: nat): (r: Option<nat>)
    ensures r.Some? ==> from <= r.value && MatchesAt(name, r.value)
                        && forall j :: from <= j < r.value ==> !MatchesAt(name, j)
    ensures r.None? ==> forall j :: from <= j ==> !MatchesAt(name, j)
    decreases |name| - from
  {
    if from + 1 >= |name| then None
    else if MatchesAt(name, from) then Some(from)
    else FirstMatchFrom(name, from + 1)
  }

  /** The derived debug queue name: ".debug" inserted before the leftmost match, or the name
      unchanged when nothing matches. */
  function DebugName(name: string): (r: string)
    ensures (forall i :: !MatchesAt(name, i)) <==> r == name
    ensures r != name ==> |r| == |name| + 6
    ensures (forall i :: 0 <= i < |name| - 1 ==> name[i] != '.') ==> r == name
  {
    match FirstMatchFrom(name, 0)
    case None => name
    case Some(i) =>
      assert |name[..i] + ".debug" + name[i..]| == |name| + 6;
      name[..i] + ".debug" + name[i..]
  }

  /** When `i` is the leftmost match, the derived name is the original with ".debug" inserted
      at `i`. */
  lemma DebugNameAt(name: string, i: nat)
    requires MatchesAt(name, i) && forall j :: 0 <= j < i ==> !MatchesAt(name, j)
    ensures DebugName(name) == name[..i] + ".debug" + name[i..]
  {
  }

  /** The example from the test suite. */
  lemma DebugNameExample()
    ensures DebugName("my_model.my_action") == "my_model.debug.my_action"
  {
    var name := "my_model.my_action";
    assert MatchesAt(name, 8);
    forall j | 0 <= j < 8
      ensures !MatchesAt(name, j)
    {
      if j < 7 {
        assert name[8] == '.';
      }
    }
    DebugNameAt(name, 8);
  }

  /** The derivation computed the way an implementation would: find the last dot, and take
      the one just before it if it is a dot too. */
  method DeriveDebugName(name: string) returns (r: string)
    ensures r == DebugName(name)
  {
    var d := |name|;
    while d > 0 && name[d - 1] != '.'
      invariant 0 <= d <= |name|
      invariant forall k :: d <= k < |name| ==> name[k] != '.'
      decreases d
    {
      d := d - 1;
    }
    if d == 0 {
      assert forall i :: !MatchesAt(name, i);
      return name;
    }
    var dot := d - 1;
    // A match needs no dot after its second character, so it starts at `dot - 1` or `dot`.
    assert forall j :: 0 <= j < dot - 1 ==> !MatchesAt(name, j) by {
      forall j | 0 <= j < dot - 1
        ensures !MatchesAt(name, j)
      {
        assert j + 2 <= dot && name[dot] == '.';
      }
    }
    if dot >= 1 && name[dot - 1] == '.' {
      assert MatchesAt(name, dot - 1);
      DebugNameAt(name, dot - 1);
      r := name[..dot - 1] + ".debug" + name[dot - 1..];
    } else if dot + 1 < |name| && !IsLineTerminator(name[dot + 1]) {
      assert MatchesAt(name, dot);
      DebugNameAt(name, dot);
      r := name[..dot] + ".debug" + name[dot..];
    } else {
      assert forall i :: !MatchesAt(name, i);
      r := name;
    }
  }

  // ---------------------------------------------------------------------------------------
  // Subscribing.

  /** The message of the TypeError when `routingKeys` is absent but bindings are due. */
  const NoRoutingKeysReason := "Cannot read property 'map' of undefined"
  /** The message of the TypeError when `waitingFunc` is not a function. */
  const NoWaitingFuncReason := "this.configurations.consumer.waitingFunc is not a function"

  /** One `bindQueue` per routing key, in order, on the confirmed queue name. */
  function BindAll(queueName: string, exchangeName: string, keys: seq<string>): (r: seq<Command>)
    ensures |r| == |keys|
    ensures forall i :: 0 <= i < |keys| ==> r[i] == BindQueue(queueName, exchangeName, Some(keys[i]))
    ensures Bindings(r) == r
  {
    if |keys| == 0 then [] else
      var rest := BindAll(queueName, exchangeName, keys[1..]);
      var head := BindQueue(queueName, exchangeName, Some(keys[0]));
      Singleton(head);
      BindingsAppend([head], rest);
      [head] + rest
  }

  /** The outcome of `assertRabbitInfra`: the channel calls issued, and the error thrown. */
  datatype Plan = Plan(calls: seq<Command>, error: Option<string>)

  /** `assertRabbitInfra`: assert the exchange if it is named, assert the queue, bind every
      routing key if the exchange is named, then set the prefetch. */
  function AssertInfra(cfg: Config, confirmed: string): (r: Plan)
    ensures var q := if HasNamedExchange(cfg.exchange) then 1 else 0;
            && |r.calls| == q + 1 + (if r.error.None? then |Bindings(r.calls)| + 1 else 0)
            && r.calls[q] == AssertQueue(cfg.queue)
    ensures HasNamedExchange(cfg.exchange) <==> r.calls[0].AssertExchange?
    ensures HasNamedExchange(cfg.exchange) ==> r.calls[0] == AssertExchange(cfg.exchange.value)
    ensures forall c :: c in r.calls && c.AssertExchange? ==>
              HasNamedExchange(cfg.exchange) && c == AssertExchange(cfg.exchange.value)
    ensures r.error.Some? <==> HasNamedExchange(cfg.exchange) && cfg.routingKeys.None?
    ensures r.error.None? ==> r.calls[|r.calls| - 1] == Prefetch(cfg.options.prefetch)
    ensures r.error.None? && HasNamedExchange(cfg.exchange) ==>
            var keys := cfg.routingKeys.value;
            && |Bindings(r.calls)| == |keys|
            && forall i :: 0 <= i < |keys| ==>
                 r.calls[2 + i] == BindQueue(confirmed, cfg.exchange.value.name, Some(keys[i]))
    ensures !HasNamedExchange(cfg.exchange) ==> Bindings(r.calls) == []
  {
    var queue := AssertQueue(cfg.queue);
    var prefetch := Prefetch(cfg.options.prefetch);
    if !HasNamedExchange(cfg.exchange) then
      NoBindings([queue, prefetch]);
      Plan([queue, prefetch], None)
    else if cfg.routingKeys.None? then
      NoBindings([AssertExchange(cfg.exchange.value), queue]);
      Plan([AssertExchange(cfg.exchange.value), queue], Some(NoRoutingKeysReason))
    else
      var binds := BindAll(confirmed, cfg.exchange.value.name, cfg.routingKeys.value);
      NamedLayout(cfg.exchange.value, cfg.queue, binds, cfg.options.prefetch);
      Plan([AssertExchange(cfg.exchange.value), queue] + binds + [prefetch], None)
  }

  /** Where each call sits in the plan of a named exchange. */
  lemma NamedLayout(exchange: ExchangeSpec, queue: QueueSpec, binds: seq<Command>, prefetch: Option<int>)
    requires forall i :: 0 <= i < |binds| ==> binds[i].BindQueue?
    requires Bindings(binds) == binds
    ensures var calls := [AssertExchange(exchange), AssertQueue(queue)] + binds + [Prefetch(prefetch)];
            && |calls| == |binds| + 3
            && calls[0] == AssertExchange(exchange) && calls[1] == AssertQueue(queue)
            && calls[|calls| - 1] == Prefetch(prefetch)
            && (forall i :: 0 <= i < |binds| ==> calls[2 + i] == binds[i])
            && Bindings(calls) == binds
            && (forall c :: c in calls && c.AssertExchange? ==> c == AssertExchange(exchange))
            && (forall c :: c in calls && c.BindQueue? ==> c in binds)
  {
    var head := [AssertExchange(exchange), AssertQueue(queue)];
    var calls := head + binds + [Prefetch(prefetch)];
    NoBindings(head);
    Singleton(Prefetch(prefetch));
    BindingsAppend(head, binds);
    BindingsAppend(head + binds, [Prefetch(prefetch)]);
    forall c | c in calls
      ensures c == AssertExchange(exchange) || c == AssertQueue(queue) || c == Prefetch(prefetch) || c in binds
    {
      var j :| 0 <= j < |calls| && calls[j] == c;
      if 2 <= j < |calls| - 1 {
        assert calls[j] == binds[j - 2];
      }
    }
  }

  /** The consumer's queue is bound to its exchange under exactly its routing keys, and the
      plan binds nothing else. */
  lemma InfraBindings(cfg: Config, confirmed: string)
    requires HasNamedExchange(cfg.exchange) && cfg.routingKeys.Some?
    ensures var calls := AssertInfra(cfg, confirmed).calls;
            forall p :: p in BoundPatterns(calls, confirmed, cfg.exchange.value.name)
                        <==> p.Some? && p.value in cfg.routingKeys.value
    ensures forall c :: c in AssertInfra(cfg, confirmed).calls && c.BindQueue? ==>
              c.queueName == confirmed && c.exchangeName == cfg.exchange.value.name
  {
    var keys := cfg.routingKeys.value;
    var name := cfg.exchange.value.name;
    var binds := BindAll(confirmed, name, keys);
    var calls := [AssertExchange(cfg.exchange.value), AssertQueue(cfg.queue)] + binds + [Prefetch(cfg.options.prefetch)];
    NamedLayout(cfg.exchange.value, cfg.queue, binds, cfg.options.prefetch);
    assert AssertInfra(cfg, confirmed).calls == calls;
    forall c | c in calls && c.BindQueue?
      ensures c.queueName == confirmed && c.exchangeName == name && c.pattern.Some? && c.pattern.value in keys
    {
      var i :| 0 <= i < |binds| && binds[i] == c;
    }
    forall k | k in keys
      ensures Some(k) in BoundPatterns(calls, confirmed, name)
    {
      var i :| 0 <= i < |keys| && keys[i] == k;
      assert calls[2 + i] == binds[i];
    }
  }

  /** A publisher on the consumer's exchange whose routing key is one of the consumer's keys
      publishes under a pattern the consumer's queue is bound with on that exchange. */
  lemma PublisherKeyReachesConsumer(cfg: Config, confirmed: string, pub: Publisher.Config,
                                    msg: Publisher.Prepared, pubConfirmed: string)
    requires HasNamedExchange(cfg.exchange) && cfg.routingKeys.Some?
    requires pub.exchange == cfg.exchange && pub.queue.Some?
    requires pub.routingKey.Some? && pub.routingKey.value != "" && pub.routingKey.value in cfg.routingKeys.value
    ensures var cmds := Publisher.Route(pub, msg, pubConfirmed);
            && cmds[|cmds| - 1].exchangeName == cfg.exchange.value.name
            && Some(cmds[|cmds| - 1].routingKey) in BoundPatterns(AssertInfra(cfg, confirmed).calls, confirmed, cfg.exchange.value.name)
  {
  }

  /** One step of `subscribe`: a channel call, the `consume` registration, or awaiting
      `waitingFunc`. */
  datatype SubscribeStep = Call(command: Command) | StartConsuming(queueName: string, options: ConsumerOptions) | AwaitWaitingFunc

  /** The outcome of `subscribe`: the steps taken, the queue the debug publisher is bound to
      (when debugging is enabled), and the error thrown. */
  datatype Subscription = Subscription(steps: seq<SubscribeStep>, debugQueue: Option<QueueSpec>, error: Option<string>)

  predicate DebugEnabled(cfg: Config) {
    cfg.debug.Some? && cfg.debug.value.enabled
  }

  /** Where each step sits when channel calls are followed by the `consume` registration and
      possibly the wait. */
  lemma StepsLayout(calls: seq<SubscribeStep>, start: SubscribeStep, wait: seq<SubscribeStep>)
    requires forall i :: 0 <= i < |calls| ==> calls[i].Call?
    requires start.StartConsuming? && (wait == [] || wait == [AwaitWaitingFunc])
    ensures var steps := calls + [start] + wait;
            && |steps| == |calls| + 1 + |wait|
            && (forall i :: 0 <= i < |calls| ==> steps[i] == calls[i])
            && steps[|calls|] == start
            && (forall i :: 0 <= i < |steps| && i != |calls| ==> !steps[i].StartConsuming?)
            && (steps[|steps| - 1] == AwaitWaitingFunc <==> wait != [])
  {
  }

  /** `subscribe`: the infrastructure plan, then (in `consume`) the debug publisher's queue,
      the `consume` registration and the wait for `waitingFunc`. The guard
      `!name || name !== ''` before the derivation holds for every name, so a configured debug
      queue name is always replaced by the derived one. */
  function Subscribe(cfg: Config, confirmed: string): (r: Subscription)
    ensures AssertInfra(cfg, confirmed).error.Some? ==>
            var calls := AssertInfra(cfg, confirmed).calls;
            && r.error == AssertInfra(cfg, confirmed).error && r.debugQueue.None?
            && |r.steps| == |calls|
            && (forall i :: 0 <= i < |calls| ==> r.steps[i] == Call(calls[i]))
    ensures AssertInfra(cfg, confirmed).error.None? ==>
            var n := |AssertInfra(cfg, confirmed).calls|;
            && |r.steps| == n + (if cfg.hasWaitingFunc then 2 else 1)
            && (forall i :: 0 <= i < n ==> r.steps[i] == Call(AssertInfra(cfg, confirmed).calls[i]))
            && r.steps[n] == StartConsuming(confirmed, cfg.options)
            && (forall i :: 0 <= i < |r.steps| && i != n ==> !r.steps[i].StartConsuming?)
            && (cfg.hasWaitingFunc <==> r.steps[|r.steps| - 1] == AwaitWaitingFunc)
            && (r.error.None? <==> cfg.hasWaitingFunc)
            && (r.debugQueue.Some? <==> DebugEnabled(cfg))
            && (DebugEnabled(cfg) ==>
                  r.debugQueue.value == QueueSpec(DebugName(confirmed), cfg.debug.value.queue.options))
  {
    var infra := AssertInfra(cfg, confirmed);
    var calls := seq(|infra.calls|, i requires 0 <= i < |infra.calls| => Call(infra.calls[i]));
    assert |calls| == |infra.calls|;
    if infra.error.Some? then Subscription(calls, None, infra.error)
    else
      var debugQueue :=
        if DebugEnabled(cfg) then
          var current := cfg.debug.value.queue.name;
          var name := if current == "" || current != "" then DebugName(confirmed) else current;
          Some(cfg.debug.value.queue.(name := name))
        else None;
      var start := StartConsuming(confirmed, cfg.options);
      var wait := if cfg.hasWaitingFunc then [AwaitWaitingFunc] else [];
      StepsLayout(calls, start, wait);
      Subscription(calls + [start] + wait, debugQueue, if cfg.hasWaitingFunc then None else Some(NoWaitingFuncReason))
  }

  /** A configured debug queue name makes no difference to the subscription. */
  lemma CustomDebugNameIgnored(cfg: Config, confirmed: string, custom: string)
    requires DebugEnabled(cfg)
    ensures var other := cfg.(debug := Some(cfg.debug.value.(queue := cfg.debug.value.queue.(name := custom))));
            Subscribe(other, confirmed) == Subscribe(cfg, confirmed)
  {
  }

  // ---------------------------------------------------------------------------------------
  // Handling one delivered message.

  /** What the caller's receive function did. */
  datatype Outcome = Completed | Threw(message: string)

  /** The diagnostic sent to the debug queue, `JSON.stringify({ error, message })`. The model
      keeps the part it follows: the delivered content as decoded text. */
  datatype DebugRecord = DebugRecord(content: string)

  datatype Action =
    | Receive(content: string)                            // receiveFunc(message)
    | Ack(allUpTo: Option<bool>)                          // channel.ack(message, allUpTo)
    | Nack(allUpTo: Option<bool>, requeue: Option<bool>)  // channel.nack(message, allUpTo, requeue)
    | Log(record: LogRecord)                              // emit('log', record)
    | Divert(queue: QueueSpec, diagnostic: DebugRecord)     // debugPublisher.publish(...)

  predicate IsReceive(a: Action) { a.Receive? }
  predicate IsAck(a: Action) { a.Ack? }
  predicate IsNack(a: Action) { a.Nack? }
  predicate IsLog(a: Action) { a.Log? }
  predicate IsDivert(a: Action) { a.Divert? }

  /** How many actions satisfy `p`. */
  function Tally(actions: seq<Action>, p: Action -> bool): nat {
    if |actions| == 0 then 0 else (if p(actions[0]) then 1 else 0) + Tally(actions[1..], p)
  }

  lemma {:induction false} TallyAppend(a: seq<Action>, b: seq<Action>, p: Action -> bool)
    ensures Tally(a + b, p) == Tally(a, p) + Tally(b, p)
  {
    if |a| > 0 {
      assert (a + b)[0] == a[0] && (a + b)[1..] == a[1..] + b;
      TallyAppend(a[1..], b, p);
    } else {
      assert a + b == b;
    }
  }

  /** Whether an at-most-one-action part holds an action satisfying `p`. */
  function Indicator(part: seq<Action>, p: Action -> bool): nat {
    if |part| > 0 && p(part[0]) then 1 else 0
  }

  /** The tally of four parts of at most one action each. */
  lemma TallyOfParts(a: seq<Action>, b: seq<Action>, c: seq<Action>, d: seq<Action>, p: Action -> bool)
    requires |a| <= 1 && |b| <= 1 && |c| <= 1 && |d| <= 1
    ensures Tally(a + b + c + d, p) == Indicator(a, p) + Indicator(b, p) + Indicator(c, p) + Indicator(d, p)
  {
    TallyAppend(a, b, p);
    TallyAppend(a + b, c, p);
    TallyAppend(a + b + c, d, p);
  }

  /** Tallies of the handler's trace, assembled from a receive and three parts of at most one
      action each, every part holding only actions of its own kind. */
  lemma HandleParts(text: string, log: seq<Action>, settle: seq<Action>, divert: seq<Action>)
    requires |log| <= 1 && |settle| <= 1 && |divert| <= 1
    requires forall a :: a in log ==> a.Log?
    requires forall a :: a in settle ==> a.Ack? || a.Nack?
    requires forall a :: a in divert ==> a.Divert?
    ensures var r := [Receive(text)] + log + settle + divert;
            && Tally(r, IsReceive) == 1
            && Tally(r, IsLog) == |log|
            && Tally(r, IsAck) == Indicator(settle, IsAck)
            && Tally(r, IsNack) == Indicator(settle, IsNack)
            && Tally(r, IsDivert) == |divert|
            && |r| == Tally(r, IsReceive) + Tally(r, IsLog) + Tally(r, IsAck) + Tally(r, IsNack) + Tally(r, IsDivert)
            && r[0] == Receive(text)
            && (forall a :: a in r ==> a == Receive(text) || a in log || a in settle || a in divert)
            && (|log| == 1 ==> r[1] == log[0])
            && (|divert| == 1 ==> r[|r| - 1] == divert[0])
  {
    var head := [Receive(text)];
    TallyOfParts(head, log, settle, divert, IsReceive);
    TallyOfParts(head, log, settle, divert, IsLog);
    TallyOfParts(head, log, settle, divert, IsAck);
    TallyOfParts(head, log, settle, divert, IsNack);
    TallyOfParts(head, log, settle, divert, IsDivert);
  }

  /** The per-message handler passed to `consume`: decode the body, call the receive function
      once, then acknowledge on success or log and reject on failure (each only without
      `noAck`), and on failure with debugging enabled divert a diagnostic last. */
  function Handle(options: ConsumerOptions, debugQueue: Option<QueueSpec>, body: seq<Utf8.byte>, outcome: Outcome): (r: seq<Action>)
    ensures |r| > 0 && r[0] == Receive(Utf8.Decode(body))
    ensures Tally(r, IsReceive) == 1
    ensures Tally(r, IsLog) == (if outcome.Threw? then 1 else 0)
    ensures Tally(r, IsAck) == (if outcome.Completed? && !options.noAck then 1 else 0)
    ensures Tally(r, IsNack) == (if outcome.Threw? && !options.noAck then 1 else 0)
    ensures Tally(r, IsDivert) == (if outcome.Threw? && debugQueue.Some? then 1 else 0)
    ensures |r| == Tally(r, IsReceive) + Tally(r, IsLog) + Tally(r, IsAck) + Tally(r, IsNack) + Tally(r, IsDivert)
    ensures forall a :: a in r && a.Ack? ==> a == Ack(options.allUpTo)
    ensures forall a :: a in r && a.Nack? ==> a == Nack(options.allUpTo, options.requeue)
    ensures outcome.Threw? ==> |r| >= 2 && r[1] == Log(LogRecord(["error", "AMQP", "consumer"], outcome.message))
    ensures outcome.Threw? && debugQueue.Some? ==>
            r[|r| - 1] == Divert(debugQueue.value, DebugRecord(Utf8.Decode(body)))
  {
    var text := Utf8.Decode(body);
    var (log, settle, divert) :=
      match outcome
      case Completed =>
        ([], if options.noAck then [] else [Ack(options.allUpTo)], [])
      case Threw(message) =>
        ([Log(LogRecord(["error", "AMQP", "consumer"], message))],
         if options.noAck then [] else [Nack(options.allUpTo, options.requeue)],
         if debugQueue.Some? then [Divert(debugQueue.value, DebugRecord(text))] else []);
    HandleParts(text, log, settle, divert);
    [Receive(text)] + log + settle + divert
  }

  /** A string published to a queue reaches the receive function of a consumer of that queue
      as the same string, and a failing receive function diverts that same string to the debug
      queue. */
  lemma PublishedTextIsReceived(pub: Publisher.Config, s: string, confirmed: string,
                                options: ConsumerOptions, debugQueue: Option<QueueSpec>, outcome: Outcome)
    requires pub.queue.Some? && s != ""
    ensures Publisher.Publish(pub, Publisher.Plain(Schema.Str(s)), confirmed).Success?
    ensures var cmds := Publisher.Publish(pub, Publisher.Plain(Schema.Str(s)), confirmed).value;
            var body := cmds[|cmds| - 1].content;
            var actions := Handle(options, debugQueue, body, outcome);
            && actions[0] == Receive(s)
            && (outcome.Threw? && debugQueue.Some? ==> actions[|actions| - 1].diagnostic.content == s)
  {
    Publisher.PublishTextRoundTrip(pub, s, confirmed);
  }

  // ---------------------------------------------------------------------------------------
  // Resubscribing.

  /** The connection event the constructor listens to. */
  const ResubscribeEvent := "reconnected"

  /** The listener registered in the constructor: on its event it runs `subscribe` again. */
  function OnConnectionEvent(cfg: Config, name: string, confirmed: string): (r: Option<Subscription>)
    ensures r.Some? <==> name == ResubscribeEvent
    ensures r.Some? ==> r.value.steps == Subscribe(cfg, confirmed).steps
  {
    if name == ResubscribeEvent then Some(Subscribe(cfg, confirmed)) else None
  }

  /** The connection manager announces a reconnection as `reconnect`, which is not the
      event the consumer listens to: no transition of the manager ever resubscribes a
      consumer. */
  lemma NoTransitionResubscribes(opts: Connection.Options, growth: Connection.Growth, s: Connection.State,
                                 op: Connection.Op, cfg: Config, confirmed: string)
    ensures forall e :: e in Connection.Apply(opts, growth, s, op).trace && e.Emit? ==>
              OnConnectionEvent(cfg, e.name, confirmed).None?
  {
  }
}

=== FILE: publisher.dfy ===
/** lib/Publisher.js: preparing a message and the channel calls one `publish` issues.

    The broker's reply to `assertQueue` (the confirmed queue name) is a parameter. */
module Publisher {
  import opened Wrappers
  import Schema
  import Utf8
  import opened Channel

  /** What `publish` is given: a `String` object, or any other JavaScript value (a primitive
      string is `Plain(Str(s))`). */
  datatype Input = Boxed(s: string) | Plain(v: Schema.Value)

  /** The prepared message: content as bytes, and the validated `options` object when one
      was supplied. */
  datatype Prepared = Prepared(content: seq<Utf8.byte>, properties: Option<Schema.Value>)

  /** The publisher's configuration: `{ exchange, queue, routingKey }`. */
  datatype Config = Config(exchange: Option<ExchangeSpec>, queue: Option<QueueSpec>, routingKey: Option<string>)

  /** A string, primitive or boxed, becomes `{ content: s }`; anything else is validated as is. */
  function Normalize(input: Input): (r: Schema.Value)
    ensures input.Boxed? || input.v.Str? ==>
            var text := if input.Boxed? then input.s else input.v.s;
            r.Obj? && r.fields.Keys == {"content"} && r.fields["content"] == Schema.Str(text)
    ensures input.Plain? && !input.v.Str? ==> r == input.v
  {
    match input
    case Boxed(s) => Schema.Obj(map["content" := Schema.Str(s)])
    case Plain(Str(s)) => Schema.Obj(map["content" := Schema.Str(s)])
    case Plain(v) => v
  }

  /** A validated message is an object whose `content` is a non-empty string. */
  lemma ValidatedShape(v: Schema.Value)
    requires Schema.Check(Schema.MessageSchema, v, []).Success?
    ensures var out := Schema.Check(Schema.MessageSchema, v, []).value;
            && v.Obj? && out.Obj? && "content" in out.fields && out.fields["content"].Str?
            && "content" in v.fields && out.fields["content"] == v.fields["content"]
            && out.fields["content"].s != ""
            && ("options" in out.fields <==> "options" in v.fields)
  {
    Schema.MessageContent(v.fields, []);
  }

  /** `prepareMessage`: normalise, validate against the message schema, encode the content. */
  function Prepare(input: Input): (r: Result<Prepared, Schema.SchemaError>)
    ensures r.Success? <==> Schema.Check(Schema.MessageSchema, Normalize(input), []).Success?
    ensures r.Failure? ==> r.error == Schema.Check(Schema.MessageSchema, Normalize(input), []).error
    ensures r.Success? ==>
            var m := Normalize(input).fields;
            && "content" in m && m["content"].Str? && m["content"].s != ""
            && r.value.content == Utf8.Encode(m["content"].s)
            && (r.value.properties.Some? <==> "options" in m)
  {
    var v := Normalize(input);
    match Schema.Check(Schema.MessageSchema, v, [])
    case Failure(e) => Failure(e)
    case Success(out) =>
      ValidatedShape(v);
      var fields := out.fields;
      Success(Prepared(Utf8.Encode(fields["content"].s),
                       if "options" in fields then Some(fields["options"]) else None))
  }

  /** A string message (primitive or boxed) is accepted exactly when it is non-empty; its
      prepared content decodes back to it, and it carries no properties, because no `options`
      object is created for it. */
  lemma PrepareText(input: Input)
    requires input.Boxed? || (input.Plain? && input.v.Str?)
    ensures var s := if input.Boxed? then input.s else input.v.s;
            && (Prepare(input).Success? <==> s != "")
            && (Prepare(input).Success? ==>
                  Utf8.Decode(Prepare(input).value.content) == s && Prepare(input).value.properties.None?)
  {
    var s := if input.Boxed? then input.s else input.v.s;
    var m := map["content" := Schema.Str(s)];
    assert Normalize(input) == Schema.Obj(m);
    Schema.MessageContent(m, []);
    if s != "" {
      Schema.ObjectSemantics(Schema.MessageSchema.keys, m, [], 0);
      Utf8.DecodeEncode(s);
    }
  }

  /** An object message with an `options` object gets the option defaults: a missing
      `contentType` is "application/json" and a missing `persistent` is true. */
  lemma PrepareObjectDefaults(m: map<string, Schema.Value>)
    requires "options" in m && m["options"].Obj?
    requires Prepare(Plain(Schema.Obj(m))).Success?
    ensures var p := Prepare(Plain(Schema.Obj(m))).value.properties;
            var o := m["options"].fields;
            && p.Some? && p.value.Obj?
            && "contentType" in p.value.fields
            && p.value.fields["contentType"] == (if "contentType" in o then o["contentType"] else Schema.Str(Schema.DefaultContentType))
            && "persistent" in p.value.fields
            && p.value.fields["persistent"] == (if "persistent" in o then o["persistent"] else Schema.Bool(true))
  {
    var keys := Schema.MessageSchema.keys;
    assert Normalize(Plain(Schema.Obj(m))) == Schema.Obj(m);
    Schema.ObjectSemantics(keys, m, [], 1);
    assert [] + ["options"] == ["options"];
    Schema.MessageOptionDefaults(m["options"].fields, ["options"]);
  }

  /** The validated `options` object forwards every supplied option unchanged. */
  lemma PrepareKeepsOptions(m: map<string, Schema.Value>)
    requires "options" in m
    requires Prepare(Plain(Schema.Obj(m))).Success?
    ensures var p := Prepare(Plain(Schema.Obj(m))).value.properties;
            && m["options"].Obj? && p.Some? && p.value.Obj?
            && forall name :: name in m["options"].fields ==>
                 name in p.value.fields && p.value.fields[name] == m["options"].fields[name]
  {
    var keys := Schema.MessageSchema.keys;
    assert Normalize(Plain(Schema.Obj(m))) == Schema.Obj(m);
    Schema.ObjectSemantics(keys, m, [], 1);
    assert [] + ["options"] == ["options"];
    Schema.MessageOptionKeysDistinct();
    Schema.SuppliedLeavesKept(Schema.MessageOptionsSchema.keys, m["options"].fields, ["options"]);
  }

  /** `routingKey || queue`: the routing key unless it is absent or empty. */
  function RoutingKeyOr(routingKey: Option<string>, fallback: string): string {
    if routingKey.Some? && routingKey.value != "" then routingKey.value else fallback
  }

  /** The channel calls of one `publish`, given the prepared message and the confirmed name of
      the asserted queue. */
  function Route(cfg: Config, msg: Prepared, confirmed: string): (r: seq<Command>)
    ensures HasNamedExchange(cfg.exchange) <==> |r| > 0 && r[0].AssertExchange?
    ensures HasNamedExchange(cfg.exchange) ==> r[0] == AssertExchange(cfg.exchange.value)
    ensures forall c :: c in r && c.AssertExchange? ==> HasNamedExchange(cfg.exchange) && c.exchange == cfg.exchange.value
    ensures var q := if HasNamedExchange(cfg.exchange) then 1 else 0;
            && |r| == q + (if cfg.queue.Some? then q + 2 else 0)
            && (cfg.queue.Some? ==> r[q] == AssertQueue(cfg.queue.value))
            && (cfg.queue.Some? && q == 1 ==> r[2] == BindQueue(confirmed, cfg.exchange.value.name, cfg.routingKey))
    ensures cfg.queue.None? ==> CountPublishes(r) == 0 && forall c :: c in r ==> !c.AssertQueue?
    ensures cfg.queue.Some? ==>
            && CountPublishes(r) == 1
            && AssertQueue(cfg.queue.value) in r
            && r[|r| - 1].BasicPublish?
            && r[|r| - 1].content == msg.content
            && r[|r| - 1].properties == msg.properties
    ensures cfg.queue.Some? && HasNamedExchange(cfg.exchange) ==>
            var name := cfg.exchange.value.name;
            && Bindings(r) == [BindQueue(confirmed, name, cfg.routingKey)]
            && r[|r| - 1].exchangeName == name
            && r[|r| - 1].routingKey == (if cfg.routingKey.Some? && cfg.routingKey.value != "" then cfg.routingKey.value else confirmed)
    ensures cfg.queue.Some? && !HasNamedExchange(cfg.exchange) ==>
            && Bindings(r) == []
            && r[|r| - 1].exchangeName == ""
            && r[|r| - 1].routingKey == confirmed
  {
    var named := HasNamedExchange(cfg.exchange);
    var declare := if named then [AssertExchange(cfg.exchange.value)] else [];
    match cfg.queue
    case None => declare
    case Some(q) =>
      var (bind, publish) :=
        if named then
          var name := cfg.exchange.value.name;
          ([BindQueue(confirmed, name, cfg.routingKey)],
           BasicPublish(name, RoutingKeyOr(cfg.routingKey, confirmed), msg.content, msg.properties))
        else
          ([], BasicPublish("", confirmed, msg.content, msg.properties));
      var r := declare + [AssertQueue(q)] + bind + [publish];
      Singleton(AssertQueue(q));
      Singleton(publish);
      CountPublishesAppend(declare, [AssertQueue(q)]);
      CountPublishesAppend(declare + [AssertQueue(q)], bind);
      CountPublishesAppend(declare + [AssertQueue(q)] + bind, [publish]);
      BindingsAppend(declare, [AssertQueue(q)]);
      BindingsAppend(declare + [AssertQueue(q)], bind);
      BindingsAppend(declare + [AssertQueue(q)] + bind, [publish]);
      if named then Singleton(bind[0]); assert bind == [bind[0]]; r else r
  }

  /** `publish`: a message that fails validation issues no channel call at all and throws the
      validation error; a valid one is published once when a queue is configured, with the
      encoded content of the validated message. */
  function Publish(cfg: Config, input: Input, confirmed: string): (r: Result<seq<Command>, Schema.SchemaError>)
    ensures r.Success? <==> Schema.Check(Schema.MessageSchema, Normalize(input), []).Success?
    ensures r.Failure? ==> r.error == Schema.Check(Schema.MessageSchema, Normalize(input), []).error
    ensures r.Success? ==>
            var m := Normalize(input).fields;
            && "content" in m && m["content"].Str?
            && CountPublishes(r.value) == (if cfg.queue.Some? then 1 else 0)
            && (HasNamedExchange(cfg.exchange) <==> |r.value| > 0 && r.value[0].AssertExchange?)
            && (cfg.queue.Some? ==>
                  && AssertQueue(cfg.queue.value) in r.value
                  && r.value[|r.value| - 1].BasicPublish?
                  && r.value[|r.value| - 1].content == Utf8.Encode(m["content"].s))
  {
    match Prepare(input)
    case Failure(e) => Failure(e)
    case Success(msg) => Success(Route(cfg, msg, confirmed))
  }

  /** Publishing a non-empty string to a queue issues exactly one publish, and the bytes it
      carries decode to that string. */
  lemma PublishTextRoundTrip(cfg: Config, s: string, confirmed: string)
    requires cfg.queue.Some? && s != ""
    ensures Publish(cfg, Plain(Schema.Str(s)), confirmed).Success?
    ensures var cmds := Publish(cfg, Plain(Schema.Str(s)), confirmed).value;
            && CountPublishes(cmds) == 1
            && cmds[|cmds| - 1].BasicPublish?
            && Utf8.Decode(cmds[|cmds| - 1].content) == s
  {
    PrepareText(Plain(Schema.Str(s)));
  }
}

=== FILE: schema.dfy ===
/** The declared schemas of lib/schema.js and the validator that applies them.

    Values are the JavaScript values a configuration or message can hold. A schema is a
    `Rule`; an object schema lists its keys in declaration order, each with a rule, a
    `required` flag and an optional default. `Check` follows the validation library's order of
    work: the declared keys are validated first, in order (a missing required key is an error,
    a missing optional key takes its default, which is not itself validated), and only then
    are undeclared keys rejected. A nested object schema whose key is missing is not
    created, so the defaults inside it are not applied. */
module Schema {
  import opened Wrappers

  datatype Value =
    | Str(s: string)
    | Bool(b: bool)
    | Num(n: real)
    | Obj(fields: map<string, Value>)
    | Func
    | Other    // null, arrays and the remaining JavaScript values no schema here accepts

  datatype Rule =
    | StringRule(valid: Option<set<string>>)   // a non-empty string; `Some(vs)` restricts it to vs
    | BooleanRule
    | PositiveInteger
    | AnyObject
    | FuncRule
    | Keys(keys: seq<Key>)

  datatype Key = Key(name: string, rule: Rule, required: bool, default: Option<Value>)

  datatype Reason = NotAString | EmptyString | NotAllowed | NotABoolean | NotAPositiveInteger
                  | NotAnObject | NotAFunction | Missing | UnknownKey

  datatype SchemaError = SchemaError(path: seq<string>, reason: Reason)

  predicate IsPositiveInteger(n: real) {
    n > 0.0 && n == n.Floor as real
  }

  /** The names declared by an object schema. */
  function Names(keys: seq<Key>): set<string> {
    set k | k in keys :: k.name
  }

  /** True when no key before index `j` has the name of key `j`. */
  predicate FirstOfName(keys: seq<Key>, j: int)
    requires 0 <= j < |keys|
  {
    forall k :: 0 <= k < j ==> keys[k].name != keys[j].name
  }

  /** Validates `v` against `rule`; on success the result carries the defaults applied. */
  function Check(rule: Rule, v: Value, path: seq<string>): (r: Result<Value, SchemaError>)
    ensures r.Success? && !rule.Keys? ==> r.value == v
    ensures r.Success? && rule.Keys? ==> v.Obj? && r.value.Obj?
    decreases rule, 1, 0
  {
    match rule
    case StringRule(valid) =>
      if !v.Str? then Failure(SchemaError(path, NotAString))
      else if valid.Some? then
        (if v.s in valid.value then Success(v) else Failure(SchemaError(path, NotAllowed)))
      else if v.s == "" then Failure(SchemaError(path, EmptyString))
      else Success(v)
    case BooleanRule =>
      if v.Bool? then Success(v) else Failure(SchemaError(path, NotABoolean))
    case PositiveInteger =>
      if v.Num? && IsPositiveInteger(v.n) then Success(v) else Failure(SchemaError(path, NotAPositiveInteger))
    case AnyObject =>
      if v.Obj? then Success(v) else Failure(SchemaError(path, NotAnObject))
    case FuncRule =>
      if v.Func? then Success(v) else Failure(SchemaError(path, NotAFunction))
    case Keys(keys) =>
      if !v.Obj? then Failure(SchemaError(path, NotAnObject))
      else match CheckKeys(rule, 0, v.fields, path)
        case Failure(e) => Failure(e)
        case Success(out) =>
          if exists name :: name in v.fields && name !in Names(keys) then Failure(SchemaError(path, UnknownKey))
          else Success(Obj(out))
  }

  /** The outcome for one declared key of an object: `Some` value to store, or `None` to leave
      the key out of the result. */
  function CheckKey(key: Key, m: map<string, Value>, path: seq<string>): Result<Option<Value>, SchemaError>
    decreases key.rule, 2, 0
  {
    if key.name !in m then
      (if key.required then Failure(SchemaError(path + [key.name], Missing)) else Success(key.default))
    else match Check(key.rule, m[key.name], path + [key.name])
      case Failure(e) => Failure(e)
      case Success(x) => Success(Some(x))
  }

  /** Validates the declared keys from index `i` on, in order, and collects their values. */
  function CheckKeys(rule: Rule, i: nat, m: map<string, Value>, path: seq<string>): Result<map<string, Value>, SchemaError>
    requires rule.Keys? && i <= |rule.keys|
    decreases rule, 0, |rule.keys| - i
  {
    if i == |rule.keys| then Success(map[]) else
      var key := rule.keys[i];
      assert key in rule.keys;
      match CheckKey(key, m, path)
      case Failure(e) => Failure(e)
      case Success(here) =>
        match CheckKeys(rule, i + 1, m, path)
        case Failure(e) => Failure(e)
        case Success(rest) => Success(if here.Some? then rest[key.name := here.value] else rest)
  }

  /** The declared keys from `i` on all validate exactly when their collection does. */
  lemma {:induction false} CheckKeysSucceeds(rule: Rule, i: nat, m: map<string, Value>, path: seq<string>)
    requires rule.Keys? && i <= |rule.keys|
    ensures CheckKeys(rule, i, m, path).Success?
        <==> forall j :: i <= j < |rule.keys| ==> CheckKey(rule.keys[j], m, path).Success?
    decreases |rule.keys| - i
  {
    if i < |rule.keys| {
      CheckKeysSucceeds(rule, i + 1, m, path);
    }
  }

  /** A key whose outcome is a value, and which is the first of its name, has that value in
      the collected result. */
  lemma {:induction false} CheckKeysStores(rule: Rule, i: nat, m: map<string, Value>, path: seq<string>, j: nat)
    requires rule.Keys? && i <= j < |rule.keys| && FirstOfName(rule.keys, j)
    requires CheckKeys(rule, i, m, path).Success?
    ensures CheckKey(rule.keys[j], m, path).Success?
    ensures var here := CheckKey(rule.keys[j], m, path).value;
            var out := CheckKeys(rule, i, m, path).value;
            here.Some? ==> rule.keys[j].name in out && out[rule.keys[j].name] == here.value
    decreases |rule.keys| - i
  {
    CheckKeysSucceeds(rule, i, m, path);
    if i < j {
      CheckKeysStores(rule, i + 1, m, path, j);
    }
  }

  /** Every name in the collected result belongs to a declared key whose outcome is a value. */
  lemma {:induction false} CheckKeysOnlyDeclared(rule: Rule, i: nat, m: map<string, Value>, path: seq<string>, name: string)
    requires rule.Keys? && i <= |rule.keys|
    requires CheckKeys(rule, i, m, path).Success?
    requires name in CheckKeys(rule, i, m, path).value
    ensures exists j :: i <= j < |rule.keys| && rule.keys[j].name == name && CheckKey(rule.keys[j], m, path) != Success(None)
    decreases |rule.keys| - i
  {
    var key := rule.keys[i];
    var here := CheckKey(key, m, path);
    if here.value.Some? && key.name == name {
      assert CheckKey(rule.keys[i], m, path) != Success(None);
    } else {
      CheckKeysOnlyDeclared(rule, i + 1, m, path, name);
    }
  }

  /** What validating an object against an object schema means, key by key: it succeeds exactly
      when every declared key's outcome succeeds and no undeclared key is present, and every
      name in the result belongs to a declared key that produced a value. */
  lemma ObjectAccepts(keys: seq<Key>, m: map<string, Value>, path: seq<string>)
    ensures Check(Keys(keys), Obj(m), path).Success?
        <==> (forall k :: 0 <= k < |keys| ==> CheckKey(keys[k], m, path).Success?)
             && (forall name :: name in m ==> name in Names(keys))
    ensures Check(Keys(keys), Obj(m), path).Success? ==>
            forall name :: name in Check(Keys(keys), Obj(m), path).value.fields ==>
              exists k :: 0 <= k < |keys| && keys[k].name == name && CheckKey(keys[k], m, path) != Success(None)
  {
    var rule := Keys(keys);
    CheckKeysSucceeds(rule, 0, m, path);
    if Check(rule, Obj(m), path).Success? {
      forall name | name in Check(rule, Obj(m), path).value.fields
        ensures exists k :: 0 <= k < |keys| && keys[k].name == name && CheckKey(keys[k], m, path) != Success(None)
      {
        CheckKeysOnlyDeclared(rule, 0, m, path, name);
      }
    }
  }

  /** The same, for one key `j`: the first key of its name stores its outcome in the result. */
  lemma ObjectSemantics(keys: seq<Key>, m: map<string, Value>, path: seq<string>, j: nat)
    requires j < |keys| && FirstOfName(keys, j)
    ensures Check(Keys(keys), Obj(m), path).Success?
        <==> (forall k :: 0 <= k < |keys| ==> CheckKey(keys[k], m, path).Success?)
             && (forall name :: name in m ==> name in Names(keys))
    ensures Check(Keys(keys), Obj(m), path).Success? ==>
            var out := Check(Keys(keys), Obj(m), path).value;
            var here := CheckKey(keys[j], m, path).value;
            out.Obj?
            && (here.Some? ==> keys[j].name in out.fields && out.fields[keys[j].name] == here.value)
            && (keys[j].name in out.fields ==>
                  exists k :: 0 <= k < |keys| && keys[k].name == keys[j].name && CheckKey(keys[k], m, path) != Success(None))
  {
    var rule := Keys(keys);
    ObjectAccepts(keys, m, path);
    if Check(rule, Obj(m), path).Success? {
      CheckKeysStores(rule, 0, m, path, j);
    }
  }

  // ---------------------------------------------------------------------------------------
  // The schemas of lib/schema.js.

  function Optional(name: string, rule: Rule): Key {
    Key(name, rule, false, None)
  }

  function Defaulted(name: string, rule: Rule, default: Value): Key {
    Key(name, rule, false, Some(default))
  }

  const AnyString := StringRule(None)

  const ExchangeTypes: set<string> := {"direct", "fanout", "topic", "header"}

  const ExchangeOptionsSchema := Keys([
    Defaulted("durable", AnyString, Bool(true)),
    Defaulted("internal", AnyString, Bool(false)),
    Defaulted("autoDelete", AnyString, Bool(false)),
    Optional("alternateExchange", AnyString),
    Defaulted("arguments", AnyObject, Obj(map[]))
  ])

  const ExchangeSchema := Keys([
    Optional("name", AnyString),
    Defaulted("type", StringRule(Some(ExchangeTypes)), Str("fanout")),
    Optional("options", ExchangeOptionsSchema)
  ])

  const DefaultDebugExpires: real := 86400000.0   // 24 hours, in milliseconds

  const DebugSchema := Keys([
    Key("isActivated", BooleanRule, true, Some(Bool(false))),
    Defaulted("expires", PositiveInteger, Num(DefaultDebugExpires)),
    Defaulted("durable", BooleanRule, Bool(true)),
    Defaulted("persistent", BooleanRule, Bool(true)),
    Defaulted("queue", AnyString, Str(""))
  ])

  const ConsumerOptionsSchema := Keys([
    Optional("consumerTag", AnyString),
    Defaulted("noLocal", BooleanRule, Bool(false)),
    Defaulted("noAck", BooleanRule, Bool(false)),
    Defaulted("exclusive", BooleanRule, Bool(false)),
    Optional("priority", AnyString),
    Optional("arguments", AnyObject),
    Optional("prefetch", PositiveInteger)
  ])

  const ConsumerSchema := Keys([
    Optional("options", ConsumerOptionsSchema),
    Defaulted("receiveFunc", FuncRule, Func),
    Defaulted("waitingFunc", FuncRule, Func)
  ])

  const QueueOptionsSchema := Keys([
    Defaulted("exclusive", BooleanRule, Bool(true)),
    Defaulted("durable", BooleanRule, Bool(true)),
    Defaulted("autoDelete", BooleanRule, Bool(true)),
    Defaulted("arguments", AnyObject, Obj(map[])),
    Optional("messageTtl", PositiveInteger),
    Optional("expires", AnyString),
    Optional("deadLetterExchange", AnyString),
    Optional("deadLetterRoutingKey", AnyString),
    Optional("maxLength", PositiveInteger),
    Optional("maxPriority", AnyString)
  ])

  const QueueSchema := Keys([
    Optional("name", AnyString),
    Optional("options", QueueOptionsSchema)
  ])

  const DefaultContentType := "application/json"

  const MessageOptionsSchema := Keys([
    Defaulted("contentType", AnyString, Str(DefaultContentType)),
    Defaulted("persistent", BooleanRule, Bool(true)),
    Optional("expiration", AnyString),
    Optional("userId", AnyString),
    Optional("CC", AnyString),
    Optional("priority", AnyString),
    Optional("deliveryMode", AnyString),
    Optional("mandatory", AnyString),
    Optional("BCC", AnyString),
    Optional("immediate", AnyString),
    Optional("contentEncoding", AnyString),
    Optional("headers", AnyString),
    Optional("correlationId", AnyString),
    Optional("replyTo", AnyString),
    Optional("messageId", AnyString),
    Optional("timestamp", AnyString),
    Optional("type", AnyString),
    Optional("appId", AnyString)
  ])

  const MessageSchema := Keys([
    Key("content", AnyString, true, None),
    Optional("options", MessageOptionsSchema)
  ])

  // ---------------------------------------------------------------------------------------
  // What the schemas promise, field by field.

  /** A declared key with a leaf rule: on success a supplied value was valid and is kept
      unchanged, and a missing one was optional and is replaced by its default, if any. */
  lemma LeafField(keys: seq<Key>, m: map<string, Value>, path: seq<string>, j: nat)
    requires j < |keys| && FirstOfName(keys, j) && !keys[j].rule.Keys?
    ensures Check(Keys(keys), Obj(m), path).Success? ==>
            var name := keys[j].name;
            var out := Check(Keys(keys), Obj(m), path).value.fields;
            && (name in m ==> Check(keys[j].rule, m[name], path + [name]).Success? && name in out && out[name] == m[name])
            && (name !in m ==> !keys[j].required)
            && (name !in m && keys[j].default.Some? ==> name in out && out[name] == keys[j].default.value)
  {
    ObjectSemantics(keys, m, path, j);
  }

  /** For an object schema of leaf keys with distinct names, validation forwards every
      supplied field unchanged. */
  lemma SuppliedLeavesKept(keys: seq<Key>, m: map<string, Value>, path: seq<string>)
    requires forall k :: 0 <= k < |keys| ==> !keys[k].rule.Keys?
    requires forall j :: 0 <= j < |keys| ==> FirstOfName(keys, j)
    ensures Check(Keys(keys), Obj(m), path).Success? ==>
            var out := Check(Keys(keys), Obj(m), path).value.fields;
            forall name :: name in m ==> name in out && out[name] == m[name]
  {
    if Check(Keys(keys), Obj(m), path).Success? {
      ObjectAccepts(keys, m, path);
      forall name | name in m
        ensures name in Check(Keys(keys), Obj(m), path).value.fields
        ensures Check(Keys(keys), Obj(m), path).value.fields[name] == m[name]
      {
        assert name in Names(keys);
        var j :| 0 <= j < |keys| && keys[j].name == name;
        LeafField(keys, m, path, j);
      }
    }
  }

  /** The message option keys are leaf keys with distinct names. */
  lemma MessageOptionKeysDistinct()
    ensures forall k :: 0 <= k < |MessageOptionsSchema.keys| ==> !MessageOptionsSchema.keys[k].rule.Keys?
    ensures forall j :: 0 <= j < |MessageOptionsSchema.keys| ==> FirstOfName(MessageOptionsSchema.keys, j)
  {
  }

  /** A missing required key, or a supplied value its rule rejects, fails the whole object. */
  lemma FieldRejects(keys: seq<Key>, m: map<string, Value>, path: seq<string>, j: nat)
    requires j < |keys|
    requires (keys[j].required && keys[j].name !in m)
          || (keys[j].name in m && Check(keys[j].rule, m[keys[j].name], path + [keys[j].name]).Failure?)
    ensures Check(Keys(keys), Obj(m), path).Failure?
  {
    assert CheckKey(keys[j], m, path).Failure?;
    CheckKeysSucceeds(Keys(keys), 0, m, path);
  }

  /** A message needs a non-empty string `content`, which validation keeps as given; the
      `options` object is present in the result exactly when it was supplied. */
  lemma MessageContent(m: map<string, Value>, path: seq<string>)
    ensures Check(MessageSchema, Obj(m), path).Success? ==>
            var out := Check(MessageSchema, Obj(m), path).value.fields;
            && "content" in m && m["content"].Str? && m["content"].s != ""
            && "content" in out && out["content"] == m["content"]
            && ("options" in out <==> "options" in m)
    ensures "content" !in m || !m["content"].Str? || m["content"].s == "" ==>
            Check(MessageSchema, Obj(m), path).Failure?
  {
    var keys := MessageSchema.keys;
    LeafField(keys, m, path, 0);
    ObjectSemantics(keys, m, path, 1);
    if "content" !in m || !m["content"].Str? || m["content"].s == "" {
      FieldRejects(keys, m, path, 0);
    }
  }

  /** Message options: a missing `contentType` becomes "application/json" and a missing
      `persistent` becomes true; supplied values are kept. */
  lemma MessageOptionDefaults(o: map<string, Value>, path: seq<string>)
    ensures Check(MessageOptionsSchema, Obj(o), path).Success? ==>
            var out := Check(MessageOptionsSchema, Obj(o), path).value.fields;
            && "contentType" in out && out["contentType"] == (if "contentType" in o then o["contentType"] else Str(DefaultContentType))
            && "persistent" in out && out["persistent"] == (if "persistent" in o then o["persistent"] else Bool(true))
            && out["persistent"].Bool?
  {
    var keys := MessageOptionsSchema.keys;
    LeafField(keys, o, path, 0);
    LeafField(keys, o, path, 1);
  }

  /** The exchange type defaults to "fanout" and is always one of the four exchange kinds;
      any other supplied type is rejected. */
  lemma ExchangeType(m: map<string, Value>, path: seq<string>)
    ensures Check(ExchangeSchema, Obj(m), path).Success? ==>
            var out := Check(ExchangeSchema, Obj(m), path).value.fields;
            && "type" in out && out["type"] == (if "type" in m then m["type"] else Str("fanout"))
            && out["type"].Str? && out["type"].s in ExchangeTypes
    ensures "type" in m && !(m["type"].Str? && m["type"].s in ExchangeTypes) ==>
            Check(ExchangeSchema, Obj(m), path).Failure?
  {
    var keys := ExchangeSchema.keys;
    LeafField(keys, m, path, 1);
    if "type" in m && !(m["type"].Str? && m["type"].s in ExchangeTypes) {
      FieldRejects(keys, m, path, 1);
    }
  }

  /** Queue options: `exclusive`, `durable` and `autoDelete` default to true and `arguments`
      to the empty object. */
  lemma QueueOptionDefaults(o: map<string, Value>, path: seq<string>)
    ensures Check(QueueOptionsSchema, Obj(o), path).Success? ==>
            var out := Check(QueueOptionsSchema, Obj(o), path).value.fields;
            && "exclusive" in out && out["exclusive"] == (if "exclusive" in o then o["exclusive"] else Bool(true))
            && "durable" in out && out["durable"] == (if "durable" in o then o["durable"] else Bool(true))
            && "autoDelete" in out && out["autoDelete"] == (if "autoDelete" in o then o["autoDelete"] else Bool(true))
            && "arguments" in out && out["arguments"] == (if "arguments" in o then o["arguments"] else Obj(map[]))
            && out["exclusive"].Bool? && out["durable"].Bool? && out["autoDelete"].Bool? && out["arguments"].Obj?
  {
    var keys := QueueOptionsSchema.keys;
    LeafField(keys, o, path, 0);
    LeafField(keys, o, path, 1);
    LeafField(keys, o, path, 2);
    LeafField(keys, o, path, 3);
  }

  /** Consumer options: `noLocal`, `noAck` and `exclusive` default to false; a supplied
      `prefetch` is accepted exactly when it is a positive integer. */
  lemma ConsumerOptionDefaults(o: map<string, Value>, path: seq<string>)
    ensures Check(ConsumerOptionsSchema, Obj(o), path).Success? ==>
            var out := Check(ConsumerOptionsSchema, Obj(o), path).value.fields;
            && "noLocal" in out && out["noLocal"] == (if "noLocal" in o then o["noLocal"] else Bool(false))
            && "noAck" in out && out["noAck"] == (if "noAck" in o then o["noAck"] else Bool(false))
            && "exclusive" in out && out["exclusive"] == (if "exclusive" in o then o["exclusive"] else Bool(false))
            && ("prefetch" in o ==> o["prefetch"].Num? && IsPositiveInteger(o["prefetch"].n) && "prefetch" in out && out["prefetch"] == o["prefetch"])
    ensures "prefetch" in o && !(o["prefetch"].Num? && IsPositiveInteger(o["prefetch"].n)) ==>
            Check(ConsumerOptionsSchema, Obj(o), path).Failure?
  {
    var keys := ConsumerOptionsSchema.keys;
    LeafField(keys, o, path, 1);
    LeafField(keys, o, path, 2);
    LeafField(keys, o, path, 3);
    LeafField(keys, o, path, 6);
    if "prefetch" in o && !(o["prefetch"].Num? && IsPositiveInteger(o["prefetch"].n)) {
      FieldRejects(keys, o, path, 6);
    }
  }

  /** Debug settings: `isActivated` is required, so leaving it out is an error even though it
      declares a default; `expires` defaults to 86400000 ms and must be a positive integer. */
  lemma DebugSettings(m: map<string, Value>, path: seq<string>)
    ensures "isActivated" !in m ==> Check(DebugSchema, Obj(m), path).Failure?
    ensures "expires" in m && !(m["expires"].Num? && IsPositiveInteger(m["expires"].n)) ==>
            Check(DebugSchema, Obj(m), path).Failure?
    ensures Check(DebugSchema, Obj(m), path).Success? ==>
            var out := Check(DebugSchema, Obj(m), path).value.fields;
            && "isActivated" in m && m["isActivated"].Bool?
            && "expires" in out && out["expires"] == (if "expires" in m then m["expires"] else Num(DefaultDebugExpires))
            && out["expires"].Num? && IsPositiveInteger(out["expires"].n)
  {
    var keys := DebugSchema.keys;
    LeafField(keys, m, path, 0);
    LeafField(keys, m, path, 1);
    if "isActivated" !in m {
      FieldRejects(keys, m, path, 0);
    }
    if "expires" in m && !(m["expires"].Num? && IsPositiveInteger(m["expires"].n)) {
      FieldRejects(keys, m, path, 1);
    }
  }
}

=== FILE: utf8.dfy ===
/** The byte encoding used between the host and the broker: `new Buffer(text)` encodes a
    string as UTF-8 and `buffer.toString()` decodes UTF-8 back to text. */
module Utf8 {

  newtype byte = x: int | 0 <= x < 256

  /** U+FFFD, which the decoder yields for a byte that does not start a well-formed sequence. */
  const Replacement: char := '\U{FFFD}'

  predicate IsContinuation(b: byte) {
    0x80 <= b < 0xC0
  }

  /** The UTF-8 bytes of one Unicode scalar value. */
  function EncodeChar(c: char): (r: seq<byte>)
    ensures 1 <= |r| <= 4
    ensures (c as int < 0x80) <==> |r| == 1
    ensures forall k :: 1 <= k < |r| ==> IsContinuation(r[k])
  {
    var v := c as int;
    if v < 0x80 then
      [v as byte]
    else if v < 0x800 then
      [(0xC0 + v / 64) as byte, (0x80 + v % 64) as byte]
    else if v < 0x1_0000 then
      [(0xE0 + v / 4096) as byte, (0x80 + (v / 64) % 64) as byte, (0x80 + v % 64) as byte]
    else
      [(0xF0 + v / 262144) as byte, (0x80 + (v / 4096) % 64) as byte,
       (0x80 + (v / 64) % 64) as byte, (0x80 + v % 64) as byte]
  }

  /** `new Buffer(text)`: the concatenated UTF-8 encodings of the characters of `s`. */
  function Encode(s: string): (r: seq<byte>)
    ensures |s| <= |r| <= 4 * |s|
  {
    if |s| == 0 then [] else EncodeChar(s[0]) + Encode(s[1..])
  }

  /** The scalar value carried by a 2, 3 or 4 byte sequence starting at `b[0]`,
      before any range check. */
  function Assemble2(b0: byte, b1: byte): int {
    (b0 as int - 0xC0) * 64 + (b1 as int - 0x80)
  }

  function Assemble3(b0: byte, b1: byte, b2: byte): int {
    (b0 as int - 0xE0) * 4096 + (b1 as int - 0x80) * 64 + (b2 as int - 0x80)
  }

  function Assemble4(b0: byte, b1: byte, b2: byte, b3: byte): int {
    (b0 as int - 0xF0) * 262144 + (b1 as int - 0x80) * 4096 + (b2 as int - 0x80) * 64 + (b3 as int - 0x80)
  }

  /** Decodes the character at the head of `b` and says how many bytes it used. Shortest-form
      sequences of scalar values are accepted; any other lead byte yields U+FFFD and uses one byte. */
  function DecodeOne(b: seq<byte>): (r: (char, nat))
    requires |b| > 0
    ensures 1 <= r.1 <= |b|
    ensures b[0] < 0x80 ==> r == (b[0] as int as char, 1)
  {
    if b[0] < 0x80 then
      (b[0] as int as char, 1)
    else if 0xC2 <= b[0] <= 0xDF && |b| >= 2 && IsContinuation(b[1]) then
      (Assemble2(b[0], b[1]) as char, 2)
    else if 0xE0 <= b[0] <= 0xEF && |b| >= 3 && IsContinuation(b[1]) && IsContinuation(b[2])
            && var v := Assemble3(b[0], b[1], b[2]); 0x800 <= v && !(0xD800 <= v < 0xE000) then
      (Assemble3(b[0], b[1], b[2]) as char, 3)
    else if 0xF0 <= b[0] <= 0xF4 && |b| >= 4 && IsContinuation(b[1]) && IsContinuation(b[2]) && IsContinuation(b[3])
            && var v := Assemble4(b[0], b[1], b[2], b[3]); 0x1_0000 <= v < 0x11_0000 then
      (Assemble4(b[0], b[1], b[2], b[3]) as char, 4)
    else
      (Replacement, 1)
  }

  /** `buffer.toString()`: decodes every byte of `b`, left to right. */
  function Decode(b: seq<byte>): (r: string)
    ensures |r| <= |b|
    ensures |b| > 0 ==> |r| > 0
    decreases |b|
  {
    if |b| == 0 then "" else
      var (c, n) := DecodeOne(b);
      [c] + Decode(b[n..])
  }

  /** Bytes below 0x80 decode one to one, each to the character with its value. */
  lemma {:induction false} DecodeAscii(b: seq<byte>)
    requires forall k :: 0 <= k < |b| ==> b[k] < 0x80
    ensures |Decode(b)| == |b|
    ensures forall k :: 0 <= k < |b| ==> Decode(b)[k] as int == b[k] as int
    decreases |b|
  {
    if |b| > 0 {
      DecodeAscii(b[1..]);
      assert Decode(b) == [b[0] as int as char] + Decode(b[1..]);
    }
  }

  /** Decoding the encoding of one character, followed by anything, gives that character
      back and consumes exactly its encoding. */
  lemma DecodeOneEncodeChar(c: char, rest: seq<byte>)
    ensures DecodeOne(EncodeChar(c) + rest) == (c, |EncodeChar(c)|)
  {
    var v := c as int;
    var b := EncodeChar(c) + rest;
    if v < 0x80 {
    } else if v < 0x800 {
      assert Assemble2(b[0], b[1]) == (v / 64) * 64 + v % 64 == v;
    } else if v < 0x1_0000 {
      var q := v / 64;
      assert q / 64 == v / 4096;
      assert Assemble3(b[0], b[1], b[2]) == (q / 64) * 4096 + (q % 64) * 64 + v % 64 == v;
    } else {
      var q := v / 64;
      var p := q / 64;
      assert q / 64 == v / 4096;
      assert p / 64 == v / 262144;
      assert Assemble4(b[0], b[1], b[2], b[3]) == (p / 64) * 262144 + (p % 64) * 4096 + (q % 64) * 64 + v % 64 == v;
    }
  }

  /** Decoding undoes encoding: the bytes handed to the broker by a publisher read back as
      the text that was published. */
  lemma {:induction false} DecodeEncode(s: string)
    ensures Decode(Encode(s)) == s
  {
    if |s| > 0 {
      var e := EncodeChar(s[0]);
      var rest := Encode(s[1..]);
      DecodeOneEncodeChar(s[0], rest);
      assert (e + rest)[|e|..] == rest;
      DecodeEncode(s[1..]);
      assert [s[0]] + s[1..] == s;
    }
  }

  /** Encoding is injective: two texts with the same bytes are the same text. */
  lemma EncodeInjective(s: string, t: string)
    requires Encode(s) == Encode(t)
    ensures s == t
  {
    DecodeEncode(s);
    DecodeEncode(t);
  }
}

=== FILE: wrappers.dfy ===
/** Option and Result, the two failure-carrying datatypes the rest of the model uses.
    `None` stands for JavaScript's `undefined`; `Failure` for a thrown error. */
module Wrappers {

  datatype Option<+T> = None | Some(value: T)

  datatype Result<+R, +E> = Success(value: R) | Failure(error: E)
}
